=== FILE: README.md ===
# StormCast small-data loader and RWRF regional cropping, in Dafny

This project models three pieces of data-preparation logic.

- **The StormCast small-data loader** (`data_loader_small.py`):
  - scanning the yearly `YYYY.zarr` archives of a low-resolution and a high-resolution tier;
  - sorting them by year and keeping the configured train or validation years;
  - checking that both tiers list the same years;
  - resolving the kept channel names to storage positions;
  - building the dense hourly timeline from January 1 00:00 of the earliest year to December 31 23:00 of the latest year;
  - listing the valid input hours, i.e. those whose target `dt` hours later stays on the timeline;
  - mapping a flat sample index to an (input, target) pair, and each timestamp to the archive of its calendar year.
- **Nearest-index bounding-box cropping** of a latitude/longitude grid (`util_extract.py`):
  - `find_index_bounds`, `slice_region` and `extract_region`.
- **Alignment of ERA5 and RWRF fields** (`align.py`):
  - the common latitude/longitude box of two datasets;
  - the closed-interval mask filter applied to the ERA5 field.

Time is an integer count of hours since 0001-01-01 00:00 in the proleptic Gregorian calendar. This is the calendar and range of Python's `datetime`, and it is how the model represents every timestamp.

- `Calendar` holds the year arithmetic: leap years, the first hour of each year, and the year of an hour.
- An index or lookup that Python would reject becomes a `Failure` of a `Result`, named after the exception it stands for.
- Opening an archive is modelled by its path: handle k is the archive at path k.
- Multi-dimensional numpy arrays are sequences of rows. The leading axes of `extract_region`'s data are flattened into a sequence of 2-D planes.
- Module layout:
  - `wrappers.dfy`: `Option`/`Result`;
  - `seq_util.dfy`: list and numpy idioms (`list.index`, comprehension filters, boolean masks, clamped slices);
  - `calendar.dfy`;
  - `sample_index.dfy`;
  - `dataset_setup.dfy`;
  - `crop.dfy`;
  - `align.dfy`.

## Model

| member | source | states |
|---|---|---|
| SeqUtil.IndexOf | examples/generative/stormcast/datasets/data_loader_small.py:346 | `list.index`: absent exactly when the value is not in the list; otherwise the position of its first occurrence |
| SeqUtil.SeqMin | examples/generative/stormcast/datasets/data_loader_small.py:225 | `sorted(years)[0]`: an element of the list that no element is smaller than |
| SeqUtil.SeqMax | examples/generative/stormcast/datasets/data_loader_small.py:226 | `sorted(years)[-1]`: an element of the list that no element is larger than |
| SeqUtil.Range | examples/generative/stormcast/datasets/data_loader_small.py:238-241 | the hours `first`, `first + 1`, …, `last`: `last - first + 1` of them (none when `last < first`), entry i being `first + i` |
| SeqUtil.Filter | examples/generative/stormcast/datasets/data_loader_small.py:119-124 | a list comprehension with a condition keeps exactly the elements that satisfy it and never grows the list |
| SeqUtil.FilterKeepsOrder | examples/generative/stormcast/datasets/data_loader_small.py:119-124 | a comprehension keeps source order: its k-th element is the source element at the k-th position satisfying the condition, and those positions strictly increase |
| SeqUtil.FilterIsCompress | examples/generative/stormcast/datasets/data_loader_small.py:119-124 | a comprehension with a condition equals numpy boolean-mask selection with the mask of that condition |
| SeqUtil.FilterOfFilter | examples/generative/stormcast/datasets/data_loader_small.py:119-124 | filtering by a condition after filtering by a weaker one equals filtering by the stronger condition alone |
| SeqUtil.FilterKeepsStrictlyAscending | examples/generative/stormcast/datasets/data_loader_small.py:245-251 | filtering a strictly ascending list of hours leaves it strictly ascending |
| SeqUtil.FilterKeepsSortedBy | examples/generative/stormcast/datasets/data_loader_small.py:111-124 | filtering a year-sorted path list leaves it year-sorted |
| SeqUtil.FilterPrefix | examples/generative/stormcast/datasets/data_loader_small.py:245-251 | a filter whose condition holds exactly on the first n positions returns the first n elements |
| SeqUtil.PySlice | dev/rwrf-process/util_extract.py:20-21 | numpy `s[lo:hi]` clamps `hi` to the length: the result has `min(hi, len) - lo` elements (none when `lo` is past either end), element k is `s[lo + k]`, and it equals the plain slice when in bounds |
| SeqUtil.MaskOf | dev/rwrf-process/align.py:37-38 | an elementwise comparison gives one mask entry per coordinate, true exactly where the condition holds |
| SeqUtil.TruePositions | dev/rwrf-process/align.py:40-41 | the true positions of a mask: strictly ascending, all in bounds and true, every true position present, none for an all-false mask |
| SeqUtil.Compress | dev/rwrf-process/align.py:40-41 | `a[mask]` has one element per true position of the mask, its k-th element being the source element at the k-th true position |
| Calendar.IsLeap | examples/generative/stormcast/datasets/data_loader_small.py:228-241 | the Gregorian rule: every leap year is divisible by 4, every multiple of 400 is a leap year, and every other century year (1900, 2100) is not |
| Calendar.HoursInYear | examples/generative/stormcast/datasets/data_loader_small.py:238-241 | a year is 8760 or 8784 hours long, and 8784 exactly in a leap year |
| Calendar.LeapRuleMatchesDayCount | examples/generative/stormcast/datasets/data_loader_small.py:238-241 | the day count from year 1 gives each year 365 or 366 days, 366 exactly in a leap year |
| Calendar.YearStart | examples/generative/stormcast/datasets/data_loader_small.py:228-230 | January 1 00:00 of year y lies between 365 and 366 days per elapsed year after 0001-01-01 00:00 |
| Calendar.YearEnd | examples/generative/stormcast/datasets/data_loader_small.py:233-235 | December 31 23:00 of year y is the year's length minus one hour after its January 1 00:00: 8783 hours in a leap year, 8759 otherwise |
| Calendar.YearStartStep | examples/generative/stormcast/datasets/data_loader_small.py:238-241 | the first hour of year y+1 lies 8784 hours after that of y in a leap year and 8760 hours after it otherwise |
| Calendar.YearStartGrowth | examples/generative/stormcast/datasets/data_loader_small.py:238-241 | across b-a years the timeline grows by between 8760·(b-a) and 8784·(b-a) hours |
| Calendar.YearOf | examples/generative/stormcast/datasets/data_loader_small.py:345 | `datetime.year`: the year whose first hour is at most t and whose successor's first hour is past t |
| Calendar.YearOfUnique | examples/generative/stormcast/datasets/data_loader_small.py:345 | every hour from January 1 00:00 to December 31 23:00 of y has year y |
| Calendar.YearOfInRange | examples/generative/stormcast/datasets/data_loader_small.py:345 | every hour a `datetime` can hold has a year from 1 to 9999 |
| Calendar.YearOfMonotone | examples/generative/stormcast/datasets/data_loader_small.py:345 | a later hour never has an earlier year |
| Calendar.HoursIn2019 | examples/generative/stormcast/datasets/data_loader_small.py:228-240 | January 1 00:00 to December 31 23:00 of 2019 spans 8760 hours |
| SampleIndex.ComputeTotalSamples | examples/generative/stormcast/datasets/data_loader_small.py:220-259 | empty year list → failure. An earliest year outside 1..9999 is the year reported, before the latest one. Success exactly when the years fit a `datetime` and both ends shifted by `dt` stay in range. The timeline runs from the first hour of the earliest year to the last hour of the latest year. The valid inputs are exactly the hours whose target does not pass the last hour: they are the leading hours, in order. Their number is every hour of the timeline when `dt <= 0`, none when `dt` is at least the timeline's hour count, and that count minus `dt` otherwise |
| SampleIndex.BuildIndex | examples/generative/stormcast/datasets/data_loader_small.py:238-251 | the filtered hourly list over a range keeps the given `dt` and range ends and is dense in the sense above |
| SampleIndex.ValidPrefix | examples/generative/stormcast/datasets/data_loader_small.py:245-251 | with no missing samples, the filter keeps exactly the leading hours of the timeline: all of them when `dt <= 0`, none when `dt` is at least the hour count, otherwise the hour count minus `dt` |
| SampleIndex.TimelineBounds | examples/generative/stormcast/datasets/data_loader_small.py:228-236 | the first sample of the earliest year and the last sample of the latest year are `datetime` values in order |
| SampleIndex.Len | examples/generative/stormcast/datasets/data_loader_small.py:210-211 | for an index built as above, the number of samples is every timeline hour when `dt <= 0`, none when `dt` is at least the hour count, otherwise the hour count minus `dt` |
| SampleIndex.IdxToDatetime | examples/generative/stormcast/datasets/data_loader_small.py:330-338 | succeeds exactly for `-len <= i < len`, otherwise `IndexError`. A non-negative index gives entry i; a negative one gives entry `len + i`. The target lies `dt` hours after the input, both inside the timeline and in range |
| SampleIndex.IdxToDatetimeMonotone | examples/generative/stormcast/datasets/data_loader_small.py:330-338 | a larger non-negative sample index yields a strictly later input hour |
| SampleIndex.GetDsHandles | examples/generative/stormcast/datasets/data_loader_small.py:340-348 | if the input's year is unlisted, the input's `YearNotFound` is raised first; otherwise the target's. Success implies both years are listed, and the converse holds when there is a handle per year. The handles returned sit at the first occurrence of each year. The flag is true exactly when both handles are the same |
| SampleIndex.ContiguousYearsResolve | examples/generative/stormcast/datasets/data_loader_small.py:330-348 | when every year from the earliest to the latest is listed and `dt >= 0`, every sample in `0..len-1` resolves to a time pair and both handles |
| SampleIndex.GapYearFails | examples/generative/stormcast/datasets/data_loader_small.py:340-348 | an unlisted year strictly between the earliest and latest still contributes samples: the sample at its first hour is counted, but its handle lookup raises `YearNotFound` |
| SampleIndex.GapIndex | examples/generative/stormcast/datasets/data_loader_small.py:330-338 | in a dense index, an hour whose target stays on the timeline is served at its offset from the first hour |
| SampleIndex.Example2019 | examples/generative/stormcast/datasets/data_loader_small.py:225-259 | the year 2019 with `dt = 1` gives 8759 samples |
| DatasetSetup.SortByYear | examples/generative/stormcast/datasets/data_loader_small.py:111-113 | `sorted(paths, key=year)` is ascending by year and a permutation of its input |
| DatasetSetup.SortByYearStable | examples/generative/stormcast/datasets/data_loader_small.py:111-113 | `sorted` is stable: the archives of each year keep their relative order |
| DatasetSetup.YearsOf | examples/generative/stormcast/datasets/data_loader_small.py:125-127 | the year list has one entry per path, entry k being the year of path k |
| DatasetSetup.AllowedYears | examples/generative/stormcast/datasets/data_loader_small.py:117-138 | training keeps `train_years`, otherwise `valid_years` |
| DatasetSetup.ScanTier | examples/generative/stormcast/datasets/data_loader_small.py:111-139 | the scanned tier is year-sorted and holds exactly the found archives whose year is among the configured (train or validation) years. Year by year, an allowed year's archives keep the order and multiplicity in which they were found; a year not allowed contributes none |
| DatasetSetup.CheckYearListsAsWritten | examples/generative/stormcast/datasets/data_loader_small.py:171-197 | the year assertion as written never fails, whatever the two tiers hold |
| DatasetSetup.AsWrittenAcceptsMismatch | examples/generative/stormcast/datasets/data_loader_small.py:182-197 | low-res years [2019, 2021] against high-res years [2019, 2020] pass the assertion as written but fail the intended check |
| DatasetSetup.AsWrittenPicksWrongYear | examples/generative/stormcast/datasets/data_loader_small.py:340-348 | with those tiers, the handle lookup uses the high-res year list, so for an hour of 2020 it picks the low-res archive of 2021 |
| DatasetSetup.CheckYearLists | examples/generative/stormcast/datasets/data_loader_small.py:192-197 | the intended check passes exactly when both tiers list the same years |
| DatasetSetup.ChannelIndices | examples/generative/stormcast/datasets/data_loader_small.py:64-65 | succeeds exactly when every requested name is stored, giving one first-occurrence position per name in request order. Otherwise it reports the first unknown name |
| DatasetSetup.ResolveChannels | examples/generative/stormcast/datasets/data_loader_small.py:54-65 | "all" keeps the stored list and always succeeds. A list is kept as given and succeeds exactly when all its names are stored. Each kept name is mapped to its first storage position |
| DatasetSetup.ResolveAllIsIdentity | examples/generative/stormcast/datasets/data_loader_small.py:54-65 | with distinct stored names, "all" maps channel k to position k |
| DatasetSetup.ResolveChannelsExample | examples/generative/stormcast/datasets/data_loader_small.py:64 | channels ['b', 'd'] of ['a', 'b', 'c', 'd', 'e'] are read from positions [1, 3] |
| DatasetSetup.Build | examples/generative/stormcast/datasets/data_loader_small.py:101-206 | no low-res archive of an allowed year → `NoArchives`; differing year lists → failure. It succeeds whenever there is a low-res archive, the index can be computed from its years, both tiers list the same years and every requested channel is stored. On success: the path lists are exactly the scanned tiers, and both match the year list position by position; the index is `compute_total_samples` of the year list; the kept channels are exactly the resolved requests |
| DatasetSetup.BuildExample | examples/generative/stormcast/datasets/data_loader_small.py:101-211 | one 2019 archive per tier, training on 2019 with `dt = 1` and all channels: the dataset is built from those archives and has 8759 samples |
| DatasetSetup.BuildOneArchiveEach | examples/generative/stormcast/datasets/data_loader_small.py:101-206 | one archive of the same allowed year in each tier, with all channels kept, builds a dataset from exactly those two archives whose index is that year's `compute_total_samples`, whenever that index can be computed |
| DatasetSetup.DatasetLen | examples/generative/stormcast/datasets/data_loader_small.py:210-211 | `__len__` of a built dataset is exactly the bound of the indices `__getitem__` accepts: `-len <= i < len` |
| DatasetSetup.GetItemSources | examples/generative/stormcast/datasets/data_loader_small.py:318-348 | the time pair is `dt` apart. The pair is the one `idx_to_datetime` gives for i, with a negative index wrapping as in Python. Every archive returned is one of the dataset's and holds the calendar year of the timestamp it serves. When a year is listed twice, each handle is the archive at that year's first position in the year list, as `list.index` picks it |
| DatasetSetup.HandleYear | examples/generative/stormcast/datasets/data_loader_small.py:340-348 | a handle found for a timestamp is an archive of that timestamp's year |
| DatasetSetup.TiersAgree | examples/generative/stormcast/datasets/data_loader_small.py:322-324 | with one archive per listed year in each tier, a lookup that succeeds on the high-res tier succeeds on the low-res tier |
| DatasetSetup.ItemServedIffYearsListed | examples/generative/stormcast/datasets/data_loader_small.py:318-348 | any sample index, non-negative or negative, whose time pair resolves loads exactly when the years of its input and target are both listed; otherwise the input's missing year is reported, and failing that the target's |
| DatasetSetup.ContiguousDatasetServesAll | examples/generative/stormcast/datasets/data_loader_small.py:318-348 | for a dataset whose years are contiguous and `dt >= 0`, every index below `__len__` loads |
| DatasetSetup.GapYearItemFails | examples/generative/stormcast/datasets/data_loader_small.py:318-348 | for a dataset with a gap year, `__len__` counts the gap year's first hour, and `__getitem__` of it raises `YearNotFound` for that year |
| Crop.NearestIndex | dev/rwrf-process/util_extract.py:7 | `np.argmin(np.abs(arr - v))`: an index of least distance to v that is strictly closer than every earlier entry |
| Crop.NearestUnique | dev/rwrf-process/util_extract.py:7-8 | the first index of least distance is unique |
| Crop.FindIndexBounds | dev/rwrf-process/util_extract.py:6-9 | an empty axis fails. Otherwise the pair is ordered, in bounds, and its two ends are the nearest indices of the two bounds |
| Crop.FindIndexBoundsSymmetric | dev/rwrf-process/util_extract.py:6-9 | swapping `vmin` and `vmax` yields the same pair |
| Crop.FindIndexBoundsExample | dev/rwrf-process/util_extract.py:6-9 | axis [10, 11, 12, 13, 14] with bounds 11.2 and 13.4 gives (1, 3) |
| Crop.Meshgrid | dev/rwrf-process/util_extract.py:23 | `np.meshgrid(xs, ys)`: both grids have len(ys) rows of len(xs) entries; the first repeats xs in every row, the second repeats `ys[r]` along row r |
| Crop.CropWindow | dev/rwrf-process/util_extract.py:17-18 | the window fails exactly when an axis is empty. Otherwise it is ordered and in bounds on both axes, latitude first |
| Crop.Grids | dev/rwrf-process/util_extract.py:20-23 | the window's grids have the window's shape; cell (r, c) holds latitude `lat[i0 + r]` and longitude `lon[j0 + c]` |
| Crop.SliceRegion | dev/rwrf-process/util_extract.py:11-23 | fails exactly on an empty axis; otherwise returns the grids of the nearest-index window |
| Crop.CropPlane | dev/rwrf-process/util_extract.py:45-47 | `plane[i0:i1+1, j0:j1+1]` has at most the window's rows; row r is the clamped column slice of row `i0 + r` |
| Crop.CropPlanes | dev/rwrf-process/util_extract.py:44-47 | `arr[..., i0:i1+1, j0:j1+1]` keeps the number of planes. Cell (r, c) of a cropped plane is cell `(i0 + r, j0 + c)` of the original |
| Crop.CropPlanesShape | dev/rwrf-process/util_extract.py:44-47 | a plane with the coordinates' rows and columns, cut by a window inside them, has exactly the window's shape |
| Crop.ExtractRegion | dev/rwrf-process/util_extract.py:25-49 | fails exactly on an empty axis. Otherwise the times pass through, the grids are those of the window `find_index_bounds` picks, and the data is every plane cut to that same window |
| Crop.ExtractRegionShape | dev/rwrf-process/util_extract.py:37-49 | every cropped plane has exactly the shape of the returned coordinate grids |
| Crop.ExtractRegionAligned | dev/rwrf-process/util_extract.py:37-49 | each cell of the cropped data is the original cell at the latitude and longitude that the returned grids report for that cell |
| Align.RealMin | dev/rwrf-process/align.py:12-15 | `np.min`: an entry of the array that is no larger than any entry |
| Align.RealMax | dev/rwrf-process/align.py:12-15 | `np.max`: an entry of the array that is no smaller than any entry |
| Align.FindCommonBoundaries | dev/rwrf-process/align.py:7-17 | fails exactly when an array is empty. Otherwise a value lies in the latitude (longitude) box exactly when it lies in both datasets' latitude (longitude) ranges, and each end of the box is the matching extreme (minimum or maximum) of one of the two datasets. With CommonBoundariesWithinBoth, the lower end is the larger of the two minima and the upper end the smaller of the two maxima, also when the ranges are disjoint |
| Align.CommonBoundariesWithinBoth | dev/rwrf-process/align.py:12-15 | the lower ends are at least both minima and the upper ends at most both maxima |
| Align.DisjointBoxExample | dev/rwrf-process/align.py:7-17 | latitudes [0, 1] and [5, 6] give the inverted box with `lat_min = 5` and `lat_max = 1` |
| Align.CommonBoundariesSymmetric | dev/rwrf-process/align.py:12-15 | swapping the two datasets gives the same box |
| Align.DisjointRangesInvert | dev/rwrf-process/align.py:12-17 | no failure is raised for disjoint ranges: `lat_min > lat_max` (or the same for longitude) exactly when one dataset's range lies wholly below the other's |
| Align.KeptPositions | dev/rwrf-process/align.py:37-38 | the positions the closed-interval mask keeps are ascending and hold exactly the coordinates in `[lo, hi]`; none when no coordinate is inside |
| Align.KeepInterval | dev/rwrf-process/align.py:40-41 | `coords[mask]` holds exactly the coordinates in `[lo, hi]`, in their original order |
| Align.KeepCells | dev/rwrf-process/align.py:39 | `data[lat_mask, :][:, lon_mask]` holds the cells at kept rows and kept columns, in order |
| Align.PlotFieldFilter | dev/rwrf-process/align.py:36-45 | non-ERA5 fields pass through untouched. For ERA5, a mask of the wrong length fails. Otherwise the kept coordinates are exactly those in the closed box, in order, and the field's cell (k, c) is the original cell at the k-th kept row and c-th kept column |
| Align.CommonFilterInsideBoth | dev/rwrf-process/align.py:36-41 | cutting ERA5 to the common box keeps only coordinates inside both datasets' ranges |
| Align.InvertedBoxFiltersEverything | dev/rwrf-process/align.py:36-41 | an inverted latitude box is not an error: the filter returns no latitudes and no rows |

## Left out

- Opening zarr/npz files, `glob`, xarray `.sel`, torch tensors, logging and `dask` configuration are I/O. Archives are given as (location, year) pairs and handles as archive paths.
- Parsing the year out of `YYYY.zarr` file names is left out; the year is part of each archive value.
- `normalize_*` and `denormalize_*` are left out: they are in-place floating-point arithmetic whose round trip holds only up to rounding.
- `to_datetime` is left out: it is a conversion via floating-point Unix seconds.
- Float behaviour is left out: NaN in `np.argmin`, `np.min` and `np.max`, and rounding in `np.abs(arr - v)`. Coordinates are exact reals.
- `(last - first).total_seconds() / 3600` is taken as the exact hour count. At these magnitudes the float division is exact.
- `find_common_boundaries` on 2-D coordinate arrays is modelled on the flattened array, which is what `np.min` and `np.max` reduce over.
- The plotting part of `plot_field` (colour maps, titles, `contourf`) and the rest of `align.py` are left out.
- `dev/rwrf-process/utils/data.py` (`load_data`, `decode_time`, `extract_slice`) is not part of this model.
- SampleIndex.GetDsHandles: the `adjacent` flag compares handles with `==`, which on real xarray datasets is elementwise. The model compares archive identity, and no caller reads the flag.
- SampleIndex.IdxToDatetime: a reading of the loader's contract is that only `0 <= i < len` resolves. Python list indexing also accepts `-len <= i < 0`, counting from the end, and the model follows the code.
- SampleIndex.ContiguousYearsResolve: requires `dt >= 0`. With a negative lead time, the target of an early sample can fall in the year before the earliest listed year, and its lookup then fails.
- DatasetSetup.Build: the channel list of each tier is read from its first archive only, as the code does. It is not checked that all years store the same channels.
- DatasetSetup.Build: uses the intended year check (see Findings), so it rejects with `YearListMismatch` some tiers that the code as written accepts. The as-written outcomes are modelled only by AsWrittenAcceptsMismatch and AsWrittenPicksWrongYear; three inputs show the difference.
- DatasetSetup.Build: low-res [2019] with high-res [2019, 2020] builds as written and, when `dt >= 0`, serves every sample (lookups use the high-res list, and only years from the low-res timeline occur); the model rejects it. With `dt < 0`, the targets of the first hours fall in 2018, and their lookup raises `ValueError` at `data_loader_small.py:346` as written.
- DatasetSetup.Build: low-res [2019, 2021] with high-res [2019, 2020] builds as written. For a 2020 sample the lookup then picks the low-res 2021 archive, and the exact-time `.sel` at `data_loader_small.py:298` fails on it with `KeyError` (unless that archive holds 2020 times). A 2021 sample raises `ValueError` at `data_loader_small.py:346` because the lookup list, set at `data_loader_small.py:182`, is the high-res one.
- DatasetSetup.Build: low-res [2019, 2020] with high-res [2019] fails as written only at `data_loader_small.py:204`, with an `IndexError` when opening the high-res handles.
- `missing_samples` is always empty in the loader, so the model fixes it to the empty set.

## Findings

| source | as written | input that shows it | evidently intended | confidence | as-written member | corrected member |
|---|---|---|---|---|---|---|
| examples/generative/stormcast/datasets/data_loader_small.py:182-197 | `self.years` is overwritten with the high-res years at lines 171/182. `years` at line 188 is the high-res list as well, so `years == self.years` compares the high-res list with itself and never fails | low-res archives for 2019 and 2021, high-res archives for 2019 and 2020: the assertion passes; for an hour of 2020 the lookup picks the low-res 2021 archive (AsWrittenPicksWrongYear), and the exact-time read at `data_loader_small.py:298` then fails | the assertion rejects tiers whose year lists differ | not executed | DatasetSetup.AsWrittenAcceptsMismatch | DatasetSetup.CheckYearLists |

=== FILE: align.dfy ===
/** Overlap of two gridded datasets (`align.py`): the common latitude and
    longitude box of ERA5 and RWRF coordinates, and the closed-interval
    mask filter that cuts the ERA5 field to that box before plotting. */
module Align {
  import opened Wrappers
  import opened SeqUtil

  datatype AlignError =
    | EmptyCoordinates     // `np.min` / `np.max` of an empty array raise ValueError
    | MaskShapeMismatch    // a boolean mask whose length differs from the indexed axis raises IndexError

  /** Smallest entry of a flattened coordinate array (`np.min`).
      SeqUtil.SeqMin is the same reduction over the loader's integer year
      lists; `int` and `real` share no ordered supertype in Dafny, so each
      element type has its own pair. The two recurse from opposite ends,
      which does not change the value returned. */
  function RealMin(s: seq<real>): (m: real)
    requires |s| > 0
    ensures m in s
    ensures forall k :: 0 <= k < |s| ==> m <= s[k]
  {
    if |s| == 1 then s[0]
    else
      var init := s[..|s| - 1];
      var sofar := RealMin(init);
      assert forall k :: 0 <= k < |s| - 1 ==> s[k] == init[k];
      if s[|s| - 1] < sofar then s[|s| - 1] else sofar
  }

  /** Largest entry of a flattened coordinate array (`np.max`). */
  function RealMax(s: seq<real>): (m: real)
    requires |s| > 0
    ensures m in s
    ensures forall k :: 0 <= k < |s| ==> s[k] <= m
  {
    if |s| == 1 then s[0]
    else
      var init := s[..|s| - 1];
      var sofar := RealMax(init);
      assert forall k :: 0 <= k < |s| - 1 ==> s[k] == init[k];
      if s[|s| - 1] > sofar then s[|s| - 1] else sofar
  }

  function Max(a: real, b: real): real { if a >= b then a else b }
  function Min(a: real, b: real): real { if a <= b then a else b }

  /** The box `(lat_min, lat_max, lon_min, lon_max)`, in the source's order. */
  datatype Bounds = Bounds(latMin: real, latMax: real, lonMin: real, lonMax: real)

  /** x lies within the range spanned by the coordinates. */
  predicate InSpan(s: seq<real>, x: real)
    requires |s| > 0
  {
    RealMin(s) <= x <= RealMax(s)
  }

  predicate AllNonEmpty(aLat: seq<real>, aLon: seq<real>, bLat: seq<real>, bLon: seq<real>) {
    |aLat| > 0 && |aLon| > 0 && |bLat| > 0 && |bLon| > 0
  }

  /** `find_common_boundaries`: each axis' box is the overlap of the two
      datasets' ranges. A value lies in the box exactly when it lies in
      both ranges; each end is attained by a coordinate of one dataset, and
      is that dataset's extremum, so that with CommonBoundariesWithinBoth the
      lower end is the larger minimum and the upper end the smaller maximum
      even when the ranges do not overlap. */
  function FindCommonBoundaries(aLat: seq<real>, aLon: seq<real>, bLat: seq<real>, bLon: seq<real>)
    : (r: Result<Bounds, AlignError>)
    ensures r.Failure? <==> !AllNonEmpty(aLat, aLon, bLat, bLon)
    ensures r.Failure? ==> r.error == EmptyCoordinates
    ensures r.Success? ==>
              && (forall x :: r.value.latMin <= x <= r.value.latMax <==> InSpan(aLat, x) && InSpan(bLat, x))
              && (forall x :: r.value.lonMin <= x <= r.value.lonMax <==> InSpan(aLon, x) && InSpan(bLon, x))
    ensures r.Success? ==>
              && (r.value.latMin in aLat || r.value.latMin in bLat)
              && (r.value.latMax in aLat || r.value.latMax in bLat)
              && (r.value.lonMin in aLon || r.value.lonMin in bLon)
              && (r.value.lonMax in aLon || r.value.lonMax in bLon)
    ensures r.Success? ==>
              && (r.value.latMin == RealMin(aLat) || r.value.latMin == RealMin(bLat))
              && (r.value.latMax == RealMax(aLat) || r.value.latMax == RealMax(bLat))
              && (r.value.lonMin == RealMin(aLon) || r.value.lonMin == RealMin(bLon))
              && (r.value.lonMax == RealMax(aLon) || r.value.lonMax == RealMax(bLon))
  {
    if !AllNonEmpty(aLat, aLon, bLat, bLon) then Failure(EmptyCoordinates)
    else
      Success(Bounds(
        Max(RealMin(aLat), RealMin(bLat)),
        Min(RealMax(aLat), RealMax(bLat)),
        Max(RealMin(aLon), RealMin(bLon)),
        Min(RealMax(aLon), RealMax(bLon))))
  }

  /** The box never reaches outside either dataset: its lower ends are at
      least both minima and its upper ends at most both maxima. */
  lemma CommonBoundariesWithinBoth(aLat: seq<real>, aLon: seq<real>, bLat: seq<real>, bLon: seq<real>)
    requires AllNonEmpty(aLat, aLon, bLat, bLon)
    ensures var b := FindCommonBoundaries(aLat, aLon, bLat, bLon).value;
            && RealMin(aLat) <= b.latMin && RealMin(bLat) <= b.latMin
            && b.latMax <= RealMax(aLat) && b.latMax <= RealMax(bLat)
            && RealMin(aLon) <= b.lonMin && RealMin(bLon) <= b.lonMin
            && b.lonMax <= RealMax(aLon) && b.lonMax <= RealMax(bLon)
  {
  }

  /** Latitudes 0..1 against 5..6 give the inverted box (5, 1): the larger
      minimum and the smaller maximum, not a clamped or empty range. */
  lemma DisjointBoxExample()
    ensures FindCommonBoundaries([0.0, 1.0], [0.0], [5.0, 6.0], [0.0]) == Success(Bounds(5.0, 1.0, 0.0, 0.0))
  {
  }

  /** Swapping the two datasets gives the same box. */
  lemma CommonBoundariesSymmetric(aLat: seq<real>, aLon: seq<real>, bLat: seq<real>, bLon: seq<real>)
    ensures FindCommonBoundaries(aLat, aLon, bLat, bLon) == FindCommonBoundaries(bLat, bLon, aLat, aLon)
  {
  }

  /** Disjoint ranges are not reported: the latitude box comes back
      inverted (lat_min > lat_max) exactly when one dataset's latitudes all
      lie below the other's, and likewise for longitude. */
  lemma DisjointRangesInvert(aLat: seq<real>, aLon: seq<real>, bLat: seq<real>, bLon: seq<real>)
    requires AllNonEmpty(aLat, aLon, bLat, bLon)
    ensures var b := FindCommonBoundaries(aLat, aLon, bLat, bLon);
            && b.Success?
            && (b.value.latMin > b.value.latMax <==> RealMax(aLat) < RealMin(bLat) || RealMax(bLat) < RealMin(aLat))
            && (b.value.lonMin > b.value.lonMax <==> RealMax(aLon) < RealMin(bLon) || RealMax(bLon) < RealMin(aLon))
  {
  }

  /** `(x >= lo) & (x <= hi)`: membership of the closed interval. */
  function Kept(lo: real, hi: real): real -> bool {
    x => lo <= x <= hi
  }

  /** Indices of the coordinates the closed-interval mask keeps, ascending. */
  function KeptPositions(coords: seq<real>, lo: real, hi: real): (p: seq<nat>)
    ensures StrictlyAscending(p)
    ensures forall k :: 0 <= k < |p| ==> p[k] < |coords| && lo <= coords[p[k]] <= hi
    ensures forall i :: 0 <= i < |coords| && lo <= coords[i] <= hi ==> i in p
    ensures (forall i :: 0 <= i < |coords| ==> !(lo <= coords[i] <= hi)) ==> p == []
  {
    TruePositions(MaskOf(coords, Kept(lo, hi)))
  }

  /** `coords[(coords >= lo) & (coords <= hi)]`: exactly the coordinates of
      the closed interval, in their original order. */
  function KeepInterval(coords: seq<real>, lo: real, hi: real): (r: seq<real>)
    ensures forall x :: x in r <==> x in coords && lo <= x <= hi
    ensures var p := KeptPositions(coords, lo, hi);
            |r| == |p| && forall k :: 0 <= k < |p| ==> r[k] == coords[p[k]]
  {
    FilterIsCompress(coords, Kept(lo, hi));
    Compress(coords, MaskOf(coords, Kept(lo, hi)))
  }

  /** `data[lat_mask, :][:, lon_mask]` for masks of matching lengths: the
      cells at the kept rows and kept columns, in their original order. */
  function KeepCells(data: seq<seq<real>>, width: nat, latMask: seq<bool>, lonMask: seq<bool>)
    : (cells: seq<seq<real>>)
    requires forall row :: 0 <= row < |data| ==> |data[row]| == width
    requires |latMask| == |data| && |lonMask| == width
    ensures var rows, cols := TruePositions(latMask), TruePositions(lonMask);
            && |cells| == |rows|
            && (forall k :: 0 <= k < |rows| ==> |cells[k]| == |cols|)
            && (forall k, c :: 0 <= k < |rows| && 0 <= c < |cols| ==> cells[k][c] == data[rows[k]][cols[c]])
  {
    var rowsKept := Compress(data, latMask);
    seq(|rowsKept|, k requires 0 <= k < |rowsKept| => Compress(rowsKept[k], lonMask))
  }

  /** The coordinates and field `plot_field` contours. */
  datatype Filtered = Filtered(lon: seq<real>, lat: seq<real>, data: seq<seq<real>>)

  /** The filtering part of `plot_field`. For `"era5"` the rows of the
      (lat x lon) field and the latitudes are kept where the latitude lies in
      [lat_min, lat_max], the columns and longitudes where the longitude lies
      in [lon_min, lon_max]; any other source is passed through untouched.
      The field is a numpy array, so all its rows have the same `width`. */
  function PlotFieldFilter(lon: seq<real>, lat: seq<real>, data: seq<seq<real>>, width: nat,
                           source: string, bounds: Bounds): (r: Result<Filtered, AlignError>)
    requires forall row :: 0 <= row < |data| ==> |data[row]| == width
    ensures r.Failure? <==> source == "era5" && (|data| != |lat| || width != |lon|)
    ensures r.Failure? ==> r.error == MaskShapeMismatch
    ensures r.Success? && source != "era5" ==> r.value == Filtered(lon, lat, data)
    ensures r.Success? && source == "era5" ==>
              var rows := KeptPositions(lat, bounds.latMin, bounds.latMax);
              var cols := KeptPositions(lon, bounds.lonMin, bounds.lonMax);
              && (forall x :: x in r.value.lat <==> x in lat && bounds.latMin <= x <= bounds.latMax)
              && (forall x :: x in r.value.lon <==> x in lon && bounds.lonMin <= x <= bounds.lonMax)
              && |r.value.lat| == |r.value.data| == |rows|
              && |r.value.lon| == |cols|
              && (forall k :: 0 <= k < |rows| ==> r.value.lat[k] == lat[rows[k]])
              && (forall k :: 0 <= k < |cols| ==> r.value.lon[k] == lon[cols[k]])
              && (forall k :: 0 <= k < |rows| ==> |r.value.data[k]| == |cols|)
              && (forall k, c :: 0 <= k < |rows| && 0 <= c < |cols| ==>
                    r.value.data[k][c] == data[rows[k]][cols[c]])
  {
    if source != "era5" then Success(Filtered(lon, lat, data))
    else if |data| != |lat| || width != |lon| then Failure(MaskShapeMismatch)
    else
      var latMask := MaskOf(lat, Kept(bounds.latMin, bounds.latMax));
      var lonMask := MaskOf(lon, Kept(bounds.lonMin, bounds.lonMax));
      Success(Filtered(KeepInterval(lon, bounds.lonMin, bounds.lonMax),
                       KeepInterval(lat, bounds.latMin, bounds.latMax),
                       KeepCells(data, width, latMask, lonMask)))
  }

  /** Cutting the ERA5 field to the common box keeps only coordinates that
      also lie within the RWRF dataset's range. */
  lemma CommonFilterInsideBoth(eLon: seq<real>, eLat: seq<real>, data: seq<seq<real>>, width: nat,
                               rLat: seq<real>, rLon: seq<real>)
    requires AllNonEmpty(eLat, eLon, rLat, rLon)
    requires forall row :: 0 <= row < |data| ==> |data[row]| == width
    requires |data| == |eLat| && width == |eLon|
    ensures var b := FindCommonBoundaries(eLat, eLon, rLat, rLon).value;
            var f := PlotFieldFilter(eLon, eLat, data, width, "era5", b);
            && f.Success?
            && (forall x :: x in f.value.lat ==> InSpan(rLat, x) && InSpan(eLat, x))
            && (forall x :: x in f.value.lon ==> InSpan(rLon, x) && InSpan(eLon, x))
  {
    var b := FindCommonBoundaries(eLat, eLon, rLat, rLon).value;
    var f := PlotFieldFilter(eLon, eLat, data, width, "era5", b).value;
    forall x | x in f.lat
      ensures InSpan(rLat, x) && InSpan(eLat, x)
    {
      assert b.latMin <= x <= b.latMax;
    }
    forall x | x in f.lon
      ensures InSpan(rLon, x) && InSpan(eLon, x)
    {
      assert b.lonMin <= x <= b.lonMax;
    }
  }

  /** An inverted latitude box (disjoint ranges) is not an error: the ERA5
      filter returns no latitudes and no rows. */
  lemma InvertedBoxFiltersEverything(lon: seq<real>, lat: seq<real>, data: seq<seq<real>>, width: nat, b: Bounds)
    requires forall row :: 0 <= row < |data| ==> |data[row]| == width
    requires |data| == |lat| && width == |lon|
    requires b.latMin > b.latMax
    ensures var f := PlotFieldFilter(lon, lat, data, width, "era5", b);
            f.Success? && f.value.lat == [] && f.value.data == []
  {
  }
}

=== FILE: calendar.dfy ===
/** Proleptic Gregorian calendar arithmetic on whole hours.

    A timestamp is the number of hours elapsed since 0001-01-01 00:00, the
    earliest value Python's `datetime` can hold; hour t stands for the
    timestamp t hours after that instant. */
module Calendar {

  const MinYear: int := 1
  const MaxYear: int := 9999

  /** The Gregorian leap-year rule: every leap year is divisible by 4,
      every multiple of 400 is a leap year, and the other century years
      are not. LeapRuleMatchesDayCount shows that it agrees with the day
      count. */
  predicate IsLeap(y: int)
    ensures IsLeap(y) ==> y % 4 == 0
    ensures y % 400 == 0 ==> IsLeap(y)
    ensures y % 100 == 0 && y % 400 != 0 ==> !IsLeap(y)
  {
    CenturyDivisibility(y);
    y % 4 == 0 && (y % 100 != 0 || y % 400 == 0)
  }

  /** The length of year y in hours: 366 days in a leap year, 365 otherwise. */
  function HoursInYear(y: int): (h: nat)
    ensures h == 8760 || h == 8784
    ensures h == 8784 <==> IsLeap(y)
  {
    if IsLeap(y) then 366 * 24 else 365 * 24
  }

  /** Days from 0001-01-01 to January 1 of year y. */
  function DaysBefore(y: int): int
    requires y >= 1
  {
    var p := y - 1;
    365 * p + p / 4 - p / 100 + p / 400
  }

  /** The hour of January 1, 00:00 of year y: between 365 and 366 days per
      year elapsed since year 1. */
  function YearStart(y: int): (t: int)
    requires y >= 1
    ensures 8760 * (y - 1) <= t <= 8784 * (y - 1)
  {
    24 * DaysBefore(y)
  }

  /** The hour of December 31, 23:00 of year y: one hour short of the
      year's length after its January 1. */
  function YearEnd(y: int): (e: int)
    requires y >= 1
    ensures e == YearStart(y) + HoursInYear(y) - 1
  {
    YearStartStep(y);
    YearStart(y + 1) - 1
  }

  /** The latest whole hour Python's `datetime` can hold:
      9999-12-31 23:00. */
  const MaxHour: int := YearEnd(MaxYear)

  predicate InDatetimeRange(t: int) {
    0 <= t <= MaxHour
  }

  lemma DivUnique(a: int, d: int, q: int, r: int)
    requires d > 0 && 0 <= r < d && a == d * q + r
    ensures a / d == q
  {
    var q', r' := a / d, a % d;
    assert a == d * q' + r';
    if q' > q {
      assert d * q' >= d * (q + 1) by { MulMonotone(d, q + 1, q'); }
    } else if q' < q {
      assert d * q >= d * (q' + 1) by { MulMonotone(d, q' + 1, q); }
    }
  }

  lemma MulMonotone(d: int, x: int, y: int)
    requires d > 0 && x <= y
    ensures d * x <= d * y
  {
  }

  lemma DivStep(p: int, d: int)
    requires p >= 0 && d > 0
    ensures (p + 1) / d == p / d + (if (p + 1) % d == 0 then 1 else 0)
  {
    var q, r := p / d, p % d;
    assert p == d * q + r;
    if r + 1 < d {
      DivUnique(p + 1, d, q, r + 1);
      assert (p + 1) % d != 0;
    } else {
      assert p + 1 == d * (q + 1);
      DivUnique(p + 1, d, q + 1, 0);
    }
  }

  lemma ModOfMultiple(a: int, d: int, q: int)
    requires d > 0 && a == d * q
    ensures a % d == 0
  {
    DivUnique(a, d, q, 0);
  }

  /** A multiple of 400 is a multiple of 100, and a multiple of 100 is a
      multiple of 4. */
  lemma CenturyDivisibility(y: int)
    ensures y % 400 == 0 ==> y % 100 == 0
    ensures y % 100 == 0 ==> y % 4 == 0
  {
    if y % 400 == 0 {
      var q := y / 400;
      assert y == 400 * q;
      ModOfMultiple(y, 100, 4 * q);
    }
    if y % 100 == 0 {
      var q := y / 100;
      assert y == 100 * q;
      ModOfMultiple(y, 4, 25 * q);
    }
  }

  /** The day count of the closed formula grows by one extra day in the
      years divisible by 4, less those divisible by 100, plus those
      divisible by 400. */
  lemma LeapDayCount(y: int)
    ensures y >= 1 ==>
              DaysBefore(y + 1) - DaysBefore(y)
              == 365 + (if y % 4 == 0 then 1 else 0) - (if y % 100 == 0 then 1 else 0) + (if y % 400 == 0 then 1 else 0)
  {
    if y >= 1 {
      var p := y - 1;
      DivStep(p, 4);
      DivStep(p, 100);
      DivStep(p, 400);
    }
  }

  /** The leap rule agrees with the day count of the closed formula: a
      year has 365 or 366 days, and 366 exactly when it is a leap year. */
  lemma LeapRuleMatchesDayCount(y: int)
    requires y >= 1
    ensures 365 <= DaysBefore(y + 1) - DaysBefore(y) <= 366
    ensures IsLeap(y) <==> DaysBefore(y + 1) - DaysBefore(y) == 366
  {
    LeapDayCount(y);
    CenturyDivisibility(y);
  }

  /** Consecutive year starts lie exactly one year length apart. */
  lemma YearStartStep(y: int)
    requires y >= 1
    ensures YearStart(y + 1) == YearStart(y) + HoursInYear(y)
  {
    LeapRuleMatchesDayCount(y);
  }

  lemma {:induction false} YearStartGrowth(a: int, b: int)
    requires 1 <= a <= b
    ensures 8760 * (b - a) <= YearStart(b) - YearStart(a) <= 8784 * (b - a)
    decreases b - a
  {
    if a < b {
      YearStartGrowth(a, b - 1);
      YearStartStep(b - 1);
    }
  }

  lemma YearStartMonotone(a: int, b: int)
    requires 1 <= a < b
    ensures YearStart(a) < YearStart(b)
  {
    YearStartGrowth(a, b);
  }

  /** The calendar year of hour t, i.e. `datetime.year`. */
  function YearOf(t: int): (y: int)
    requires t >= 0
    ensures y >= 1
    ensures YearStart(y) <= t < YearStart(y + 1)
  {
    var y0 := t / 8784 + 1;
    YearStartGrowth(1, y0);
    YearOfFrom(t, y0)
  }

  function YearOfFrom(t: int, y: int): (r: int)
    requires y >= 1 && YearStart(y) <= t
    ensures r >= y
    ensures YearStart(r) <= t < YearStart(r + 1)
    decreases t - YearStart(y)
  {
    YearStartStep(y);
    if t < YearStart(y + 1) then y else YearOfFrom(t, y + 1)
  }

  /** Every hour from January 1 00:00 to December 31 23:00 of year y
      belongs to y, and to no other year. */
  lemma YearOfUnique(t: int, y: int)
    requires y >= 1
    requires YearStart(y) <= t <= YearEnd(y)
    ensures YearOf(t) == y
  {
    var r := YearOf(t);
    if r < y {
      if r + 1 < y {
        YearStartMonotone(r + 1, y);
      }
      assert false;
    } else if r > y {
      if y + 1 < r {
        YearStartMonotone(y + 1, r);
      }
      assert false;
    }
  }

  /** Every hour a `datetime` can hold has a year between 1 and 9999. */
  lemma YearOfInRange(t: int)
    requires InDatetimeRange(t)
    ensures MinYear <= YearOf(t) <= MaxYear
  {
    var r := YearOf(t);
    if r > MaxYear {
      if MaxYear + 1 < r {
        YearStartMonotone(MaxYear + 1, r);
      }
      assert false;
    }
  }

  /** The year of an hour never decreases as the hour grows. */
  lemma YearOfMonotone(s: int, t: int)
    requires 0 <= s <= t
    ensures YearOf(s) <= YearOf(t)
  {
    var a, b := YearOf(s), YearOf(t);
    if b < a {
      if b + 1 < a {
        YearStartMonotone(b + 1, a);
      }
      assert false;
    }
  }

  lemma HoursIn2019()
    ensures YearEnd(2019) - YearStart(2019) + 1 == 8760
  {
    YearStartStep(2019);
  }
}

=== FILE: crop.dfy ===
/** Nearest-index bounding-box cropping of a regular latitude/longitude
    grid (`util_extract.py`): each requested bound is mapped to the
    coordinate index closest to it, the two indices of an axis are sorted,
    and coordinates and data are cut to the inclusive index range. */
module Crop {
  import opened Wrappers
  import opened SeqUtil

  /** `np.argmin` of an empty array raises ValueError. */
  datatype CropError = EmptyAxis

  function AbsDiff(a: real, b: real): real {
    if a >= b then a - b else b - a
  }

  /** Among the first n entries, k is at least as close to v as any other,
      and strictly closer than every entry before it. */
  predicate NearestAmong(arr: seq<real>, v: real, n: int, k: int) {
    && 0 <= k < n <= |arr|
    && (forall j :: 0 <= j < n ==> AbsDiff(arr[k], v) <= AbsDiff(arr[j], v))
    && (forall j :: 0 <= j < k ==> AbsDiff(arr[k], v) < AbsDiff(arr[j], v))
  }

  /** k is what `np.argmin(np.abs(arr - v))` returns: the first index of
      least distance to v. */
  predicate IsNearest(arr: seq<real>, v: real, k: int) {
    NearestAmong(arr, v, |arr|, k)
  }

  lemma NearestUnique(arr: seq<real>, v: real, a: int, b: int)
    requires IsNearest(arr, v, a) && IsNearest(arr, v, b)
    ensures a == b
  {
    // Mention both distances so each strictness clause can fire on the other index.
    var da, db := AbsDiff(arr[a], v), AbsDiff(arr[b], v);
    assert a < b ==> db < da;
    assert b < a ==> da < db;
  }

  /** `np.argmin(np.abs(arr - v))`, scanning left to right and replacing
      the best index only on a strictly smaller distance. */
  function NearestIndex(arr: seq<real>, v: real): (k: nat)
    requires |arr| > 0
    ensures IsNearest(arr, v, k)
  {
    NearestFrom(arr, v, 1, 0)
  }

  function NearestFrom(arr: seq<real>, v: real, n: nat, best: nat): (k: nat)
    requires NearestAmong(arr, v, n, best)
    ensures IsNearest(arr, v, k)
    decreases |arr| - n
  {
    if n == |arr| then best
    else if AbsDiff(arr[n], v) < AbsDiff(arr[best], v) then NearestFrom(arr, v, n + 1, n)
    else NearestFrom(arr, v, n + 1, best)
  }

  /** `find_index_bounds`: the nearest index of each bound, smaller first. */
  function FindIndexBounds(arr: seq<real>, vmin: real, vmax: real): (r: Result<(nat, nat), CropError>)
    ensures r.Failure? <==> |arr| == 0
    ensures r.Success? ==> r.value.0 <= r.value.1 < |arr|
    ensures r.Success? ==>
              || (IsNearest(arr, vmin, r.value.0) && IsNearest(arr, vmax, r.value.1))
              || (IsNearest(arr, vmin, r.value.1) && IsNearest(arr, vmax, r.value.0))
  {
    if |arr| == 0 then Failure(EmptyAxis)
    else
      var a := NearestIndex(arr, vmin);
      var b := NearestIndex(arr, vmax);
      Success(if a <= b then (a, b) else (b, a))
  }

  /** Swapping the two bounds gives the same index pair, so an axis stored
      in descending order still yields i0 <= i1. */
  lemma FindIndexBoundsSymmetric(arr: seq<real>, vmin: real, vmax: real)
    ensures FindIndexBounds(arr, vmin, vmax) == FindIndexBounds(arr, vmax, vmin)
  {
    if |arr| > 0 {
      var p := FindIndexBounds(arr, vmin, vmax).value;
      var q := FindIndexBounds(arr, vmax, vmin).value;
      var a, b := NearestIndex(arr, vmin), NearestIndex(arr, vmax);
      if IsNearest(arr, vmin, p.0) {
        NearestUnique(arr, vmin, p.0, a);
        NearestUnique(arr, vmax, p.1, b);
      } else {
        NearestUnique(arr, vmin, p.1, a);
        NearestUnique(arr, vmax, p.0, b);
      }
      if IsNearest(arr, vmax, q.0) {
        NearestUnique(arr, vmax, q.0, b);
        NearestUnique(arr, vmin, q.1, a);
      } else {
        NearestUnique(arr, vmax, q.1, b);
        NearestUnique(arr, vmin, q.0, a);
      }
    }
  }

  /** Axis [10, 11, 12, 13, 14] cropped to (11.2, 13.4) keeps indices 1..3. */
  lemma FindIndexBoundsExample()
    ensures FindIndexBounds([10.0, 11.0, 12.0, 13.0, 14.0], 11.2, 13.4) == Success((1, 3))
  {
    var arr := [10.0, 11.0, 12.0, 13.0, 14.0];
    assert IsNearest(arr, 11.2, 1);
    assert IsNearest(arr, 13.4, 3);
    var r := FindIndexBounds(arr, 11.2, 13.4).value;
    if IsNearest(arr, 11.2, r.0) {
      NearestUnique(arr, 11.2, r.0, 1);
      NearestUnique(arr, 13.4, r.1, 3);
    } else {
      NearestUnique(arr, 11.2, r.1, 1);
      NearestUnique(arr, 13.4, r.0, 3);
    }
  }

  /** `np.meshgrid(xs, ys)`: two grids of |ys| rows and |xs| columns, the
      first repeating xs along every row, the second ys along every column. */
  function Meshgrid(xs: seq<real>, ys: seq<real>): (g: (seq<seq<real>>, seq<seq<real>>))
    ensures |g.0| == |ys| && |g.1| == |ys|
    ensures forall r :: 0 <= r < |ys| ==> |g.0[r]| == |xs| && |g.1[r]| == |xs|
    ensures forall r, c :: 0 <= r < |ys| && 0 <= c < |xs| ==> g.0[r][c] == xs[c] && g.1[r][c] == ys[r]
  {
    (seq(|ys|, _ => xs), seq(|ys|, r requires 0 <= r < |ys| => seq(|xs|, _ => ys[r])))
  }

  /** The index window of a crop: rows i0..i1 and columns j0..j1, inclusive. */
  datatype Window = Window(i0: nat, i1: nat, j0: nat, j1: nat)

  /** Both `find_index_bounds` calls of a crop, latitude first. */
  function CropWindow(lat: seq<real>, lon: seq<real>, latMin: real, latMax: real,
                      lonMin: real, lonMax: real): (r: Result<Window, CropError>)
    ensures r.Failure? <==> |lat| == 0 || |lon| == 0
    ensures r.Success? ==>
              && r.value.i0 <= r.value.i1 < |lat| && r.value.j0 <= r.value.j1 < |lon|
              && (FindIndexBounds(lat, latMin, latMax) == Success((r.value.i0, r.value.i1)))
              && (FindIndexBounds(lon, lonMin, lonMax) == Success((r.value.j0, r.value.j1)))
  {
    var ib :- FindIndexBounds(lat, latMin, latMax);
    var jb :- FindIndexBounds(lon, lonMin, lonMax);
    Success(Window(ib.0, ib.1, jb.0, jb.1))
  }

  /** The meshgrid of a window: row r, column c sits at latitude
      lat[i0 + r] and longitude lon[j0 + c], so the grids have the
      window's shape and are never empty. */
  function Grids(lat: seq<real>, lon: seq<real>, w: Window): (g: (seq<seq<real>>, seq<seq<real>>))
    requires w.i0 <= w.i1 < |lat| && w.j0 <= w.j1 < |lon|
    ensures |g.0| == |g.1| == w.i1 - w.i0 + 1
    ensures forall row :: 0 <= row < |g.1| ==> |g.0[row]| == |g.1[row]| == w.j1 - w.j0 + 1
    ensures forall row, c :: 0 <= row < |g.1| && 0 <= c < |g.1[row]| ==>
              g.0[row][c] == lon[w.j0 + c] && g.1[row][c] == lat[w.i0 + row]
  {
    Meshgrid(PySlice(lon, w.j0, w.j1 + 1), PySlice(lat, w.i0, w.i1 + 1))
  }

  /** `slice_region`: the meshgrid of the window that the nearest-index
      bounds select; it fails only when an axis is empty. */
  function SliceRegion(lat: seq<real>, lon: seq<real>, latMin: real, latMax: real,
                       lonMin: real, lonMax: real): (r: Result<(seq<seq<real>>, seq<seq<real>>), CropError>)
    ensures r.Failure? <==> |lat| == 0 || |lon| == 0
    ensures r.Success? ==>
              var w := CropWindow(lat, lon, latMin, latMax, lonMin, lonMax).value;
              r.value == Grids(lat, lon, w)
  {
    var w :- CropWindow(lat, lon, latMin, latMax, lonMin, lonMax);
    Success(Grids(lat, lon, w))
  }

  /** The plane has exactly `rows` rows of `cols` entries each. */
  predicate ShapeIs(plane: seq<seq<real>>, rows: nat, cols: nat) {
    |plane| == rows && forall r :: 0 <= r < |plane| ==> |plane[r]| == cols
  }

  /** `plane[i0:i1+1, j0:j1+1]`, with numpy's clamping of slice ends. */
  function CropPlane(plane: seq<seq<real>>, w: Window): (out: seq<seq<real>>)
    ensures w.i0 <= w.i1 ==> |out| <= w.i1 + 1 - w.i0
    ensures forall r :: 0 <= r < |out| ==>
              w.i0 + r < |plane| && out[r] == PySlice(plane[w.i0 + r], w.j0, w.j1 + 1)
    ensures forall rows, cols :: ShapeIs(plane, rows, cols) && w.i0 <= w.i1 < rows && w.j0 <= w.j1 < cols ==>
              ShapeIs(out, w.i1 - w.i0 + 1, w.j1 - w.j0 + 1)
  {
    var rows := PySlice(plane, w.i0, w.i1 + 1);
    seq(|rows|, r requires 0 <= r < |rows| => PySlice(rows[r], w.j0, w.j1 + 1))
  }

  /** `arr[..., i0:i1+1, j0:j1+1]` over the planes of the leading axes:
      cell (row, c) of a cropped plane is cell (i0 + row, j0 + c) of the
      original. */
  function CropPlanes(planes: seq<seq<seq<real>>>, w: Window): (out: seq<seq<seq<real>>>)
    ensures |out| == |planes|
    ensures w.i0 <= w.i1 && w.j0 <= w.j1 ==>
              forall p, row :: 0 <= p < |out| && 0 <= row < |out[p]| ==>
                row <= w.i1 - w.i0 && |out[p][row]| <= w.j1 + 1 - w.j0
    ensures forall p, row, c :: 0 <= p < |out| && 0 <= row < |out[p]| && 0 <= c < |out[p][row]| ==>
              && w.i0 + row < |planes[p]| && w.j0 + c < |planes[p][w.i0 + row]|
              && out[p][row][c] == planes[p][w.i0 + row][w.j0 + c]
  {
    seq(|planes|, p requires 0 <= p < |planes| => CropPlane(planes[p], w))
  }

  /** A plane of `rows` by `cols` cells, cut by a window inside those
      bounds, has exactly the window's shape. */
  lemma CropPlanesShape(planes: seq<seq<seq<real>>>, w: Window, rows: nat, cols: nat)
    requires w.i0 <= w.i1 < rows && w.j0 <= w.j1 < cols
    ensures forall p :: 0 <= p < |planes| && ShapeIs(planes[p], rows, cols) ==>
              ShapeIs(CropPlanes(planes, w)[p], w.i1 - w.i0 + 1, w.j1 - w.j0 + 1)
  {
    var out := CropPlanes(planes, w);
    forall p | 0 <= p < |planes| && ShapeIs(planes[p], rows, cols)
      ensures ShapeIs(out[p], w.i1 - w.i0 + 1, w.j1 - w.j0 + 1)
    {
      assert out[p] == CropPlane(planes[p], w);
    }
  }

  /** What `extract_region` returns: the cropped data, both coordinate
      grids and the time values passed through. */
  datatype Extracted<T> = Extracted(
    data: seq<seq<seq<real>>>,
    lonGrid: seq<seq<real>>,
    latGrid: seq<seq<real>>,
    times: T)

  /** `extract_region` on an already loaded file. The data's leading axes
      (time, level, ...) are flattened into the sequence of planes, each
      plane indexed by (y, x); every plane is cut to the same window as the
      coordinates, and the leading axes are kept as they are. */
  function ExtractRegion<T>(planes: seq<seq<seq<real>>>, lat: seq<real>, lon: seq<real>, times: T,
                            lonMin: real, lonMax: real, latMin: real, latMax: real): (r: Result<Extracted<T>, CropError>)
    ensures r.Failure? <==> |lat| == 0 || |lon| == 0
    ensures r.Success? ==>
              var w := CropWindow(lat, lon, latMin, latMax, lonMin, lonMax).value;
              var out := r.value.data;
              && r.value.times == times
              && (r.value.lonGrid, r.value.latGrid) == Grids(lat, lon, w)
              && out == CropPlanes(planes, w)
  {
    var grids :- SliceRegion(lat, lon, latMin, latMax, lonMin, lonMax);
    var w := CropWindow(lat, lon, latMin, latMax, lonMin, lonMax).value;
    Success(Extracted(CropPlanes(planes, w), grids.0, grids.1, times))
  }

  /** What a successful `extract_region` is made of: a window inside both
      axes, the planes cut to it and the grids of it. */
  lemma ExtractRegionParts<T>(planes: seq<seq<seq<real>>>, lat: seq<real>, lon: seq<real>, times: T,
                              lonMin: real, lonMax: real, latMin: real, latMax: real,
                              e: Extracted<T>, w: Window)
    requires ExtractRegion(planes, lat, lon, times, lonMin, lonMax, latMin, latMax) == Success(e)
    requires CropWindow(lat, lon, latMin, latMax, lonMin, lonMax) == Success(w)
    ensures w.i0 <= w.i1 < |lat| && w.j0 <= w.j1 < |lon|
    ensures e.data == CropPlanes(planes, w)
    ensures (e.lonGrid, e.latGrid) == Grids(lat, lon, w)
  {
  }

  /** Every cropped plane has the shape of the coordinate grids. */
  lemma ExtractRegionShape<T>(planes: seq<seq<seq<real>>>, lat: seq<real>, lon: seq<real>, times: T,
                              lonMin: real, lonMax: real, latMin: real, latMax: real,
                              e: Extracted<T>, w: Window)
    requires forall p :: 0 <= p < |planes| ==> ShapeIs(planes[p], |lat|, |lon|)
    requires ExtractRegion(planes, lat, lon, times, lonMin, lonMax, latMin, latMax) == Success(e)
    requires CropWindow(lat, lon, latMin, latMax, lonMin, lonMax) == Success(w)
    ensures |e.data| == |planes|
    ensures |e.latGrid| == |e.lonGrid| == w.i1 - w.i0 + 1
    ensures forall row :: 0 <= row < |e.latGrid| ==> |e.latGrid[row]| == |e.lonGrid[row]| == w.j1 - w.j0 + 1
    ensures forall p :: 0 <= p < |e.data| ==> ShapeIs(e.data[p], w.i1 - w.i0 + 1, w.j1 - w.j0 + 1)
  {
    ExtractRegionParts(planes, lat, lon, times, lonMin, lonMax, latMin, latMax, e, w);
    CropPlanesShape(planes, w, |lat|, |lon|);
  }

  /** Cell (row, c) of every cropped plane holds the original cell at
      (i0 + row, j0 + c), and the grids report that cell's latitude and
      longitude at the same position. */
  predicate CellsMatch(planes: seq<seq<seq<real>>>, lat: seq<real>, lon: seq<real>, w: Window,
                       out: seq<seq<seq<real>>>, lonGrid: seq<seq<real>>, latGrid: seq<seq<real>>)
  {
    forall p, row, c :: 0 <= p < |out| && 0 <= row < |out[p]| && 0 <= c < |out[p][row]| ==>
      && p < |planes| && row < |latGrid| && row < |lonGrid|
      && c < |latGrid[row]| && c < |lonGrid[row]|
      && w.i0 + row < |lat| && w.j0 + c < |lon|
      && latGrid[row][c] == lat[w.i0 + row]
      && lonGrid[row][c] == lon[w.j0 + c]
      && w.i0 + row < |planes[p]| && w.j0 + c < |planes[p][w.i0 + row]|
      && out[p][row][c] == planes[p][w.i0 + row][w.j0 + c]
  }

  /** Each cell of a cropped plane carries the value of the original cell
      whose latitude and longitude the grids report at the same position. */
  lemma ExtractRegionAligned<T>(planes: seq<seq<seq<real>>>, lat: seq<real>, lon: seq<real>, times: T,
                                lonMin: real, lonMax: real, latMin: real, latMax: real,
                                e: Extracted<T>, w: Window)
    requires ExtractRegion(planes, lat, lon, times, lonMin, lonMax, latMin, latMax) == Success(e)
    requires CropWindow(lat, lon, latMin, latMax, lonMin, lonMax) == Success(w)
    ensures CellsMatch(planes, lat, lon, w, e.data, e.lonGrid, e.latGrid)
  {
    ExtractRegionParts(planes, lat, lon, times, lonMin, lonMax, latMin, latMax, e, w);
    CellsAligned(planes, lat, lon, w, e.data, e.lonGrid, e.latGrid);
  }

  /** The cut planes' side of `CellsAligned`: every cell of a cropped
      plane lies inside the window and is the original cell it was cut from. */
  lemma CroppedCells(planes: seq<seq<seq<real>>>, w: Window, out: seq<seq<seq<real>>>)
    requires w.i0 <= w.i1 && w.j0 <= w.j1
    requires out == CropPlanes(planes, w)
    ensures |out| == |planes|
    ensures forall p, row, c :: 0 <= p < |out| && 0 <= row < |out[p]| && 0 <= c < |out[p][row]| ==>
              && row <= w.i1 - w.i0 && c <= w.j1 - w.j0
              && w.i0 + row < |planes[p]| && w.j0 + c < |planes[p][w.i0 + row]|
              && out[p][row][c] == planes[p][w.i0 + row][w.j0 + c]
  {
  }

  /** The grids' side of `CellsAligned`: inside the window, the grids
      report the latitude of the cell's row and the longitude of its column. */
  lemma GridCells(lat: seq<real>, lon: seq<real>, w: Window, lonGrid: seq<seq<real>>, latGrid: seq<seq<real>>)
    requires w.i0 <= w.i1 < |lat| && w.j0 <= w.j1 < |lon|
    requires (lonGrid, latGrid) == Grids(lat, lon, w)
    ensures forall row, c :: 0 <= row <= w.i1 - w.i0 && 0 <= c <= w.j1 - w.j0 ==>
              && row < |latGrid| && row < |lonGrid|
              && c < |latGrid[row]| && c < |lonGrid[row]|
              && latGrid[row][c] == lat[w.i0 + row] && lonGrid[row][c] == lon[w.j0 + c]
  {
  }

  /** The two contracts of a crop, put side by side. */
  lemma CellsAligned(planes: seq<seq<seq<real>>>, lat: seq<real>, lon: seq<real>, w: Window,
                     out: seq<seq<seq<real>>>, lonGrid: seq<seq<real>>, latGrid: seq<seq<real>>)
    requires w.i0 <= w.i1 < |lat| && w.j0 <= w.j1 < |lon|
    requires out == CropPlanes(planes, w)
    requires (lonGrid, latGrid) == Grids(lat, lon, w)
    ensures CellsMatch(planes, lat, lon, w, out, lonGrid, latGrid)
  {
    CroppedCells(planes, w, out);
    GridCells(lat, lon, w, lonGrid, latGrid);
  }
}

=== FILE: dataset_setup.dfy ===
/** Construction and sample lookup of the StormCast small-data loader:
    scanning the yearly archives of the low- and high-resolution tiers,
    sorting and filtering them by year, checking that both tiers list the
    same years, resolving the kept channels to storage positions, and
    naming the archives a sample is read from. Opening an archive is
    modelled by its path: handle k is the archive at path k. */
module DatasetSetup {
  import opened Wrappers
  import opened SeqUtil
  import opened Calendar
  import opened SampleIndex

  /** A yearly archive found on disk: its location and the year its
      `YYYY.zarr` name stands for. */
  datatype ArchivePath = ArchivePath(location: string, year: int)

  /** A kept-channel parameter: the string "all", or a list of names. */
  datatype ChannelRequest = AllChannels | Channels(names: seq<string>)

  datatype Params = Params(
    train: bool,
    trainYears: seq<int>,
    validYears: seq<int>,
    dt: int,
    keptLow: ChannelRequest,
    keptHigh: ChannelRequest)

  function YearKey(): ArchivePath -> int {
    (p: ArchivePath) => p.year
  }

  function YearsOf(paths: seq<ArchivePath>): (ys: seq<int>)
    ensures |ys| == |paths|
    ensures forall k :: 0 <= k < |paths| ==> ys[k] == paths[k].year
  {
    seq(|paths|, k requires 0 <= k < |paths| => paths[k].year)
  }

  /** The condition "is an archive of year y". */
  function YearIs(y: int): ArchivePath -> bool {
    (p: ArchivePath) => p.year == y
  }

  /** The condition "is an archive of an allowed year". */
  function InYears(allowed: seq<int>): ArchivePath -> bool {
    (p: ArchivePath) => p.year in allowed
  }

  function Insert(p: ArchivePath, s: seq<ArchivePath>): (r: seq<ArchivePath>)
    requires SortedBy(s, YearKey())
    ensures SortedBy(r, YearKey())
    ensures multiset(r) == multiset(s) + multiset{p}
  {
    if |s| == 0 then [p]
    else if p.year <= s[0].year then
      PrependKeepsSorted(p, s);
      [p] + s
    else
      var rest := Insert(p, s[1..]);
      InsertKeepsBound(s[0].year, p, s[1..], rest);
      PrependKeepsSorted(s[0], rest);
      assert s == [s[0]] + s[1..];
      [s[0]] + rest
  }

  /** An archive no later than the first of a sorted list can go in front. */
  lemma PrependKeepsSorted(x: ArchivePath, t: seq<ArchivePath>)
    requires SortedBy(t, YearKey())
    requires |t| == 0 || x.year <= t[0].year
    ensures SortedBy([x] + t, YearKey())
  {
    var r := [x] + t;
    forall i, j | 0 <= i < j < |r|
      ensures YearKey()(r[i]) <= YearKey()(r[j])
    {
      if i == 0 {
        assert r[j] == t[j - 1];
        assert YearKey()(t[0]) <= YearKey()(t[j - 1]) || j == 1;
      } else {
        assert r[i] == t[i - 1] && r[j] == t[j - 1];
      }
    }
  }

  lemma InsertKeepsBound(lo: int, p: ArchivePath, s: seq<ArchivePath>, r: seq<ArchivePath>)
    requires lo <= p.year
    requires forall k :: 0 <= k < |s| ==> lo <= s[k].year
    requires multiset(r) == multiset(s) + multiset{p}
    ensures forall k :: 0 <= k < |r| ==> lo <= r[k].year
  {
    forall k | 0 <= k < |r|
      ensures lo <= r[k].year
    {
      assert r[k] in multiset(r);
      if r[k] != p {
        assert r[k] in multiset(s);
        assert r[k] in s;
      }
    }
  }

  /** `sorted(paths, key=year)`: ascending by year, same archives. */
  function SortByYear(paths: seq<ArchivePath>): (r: seq<ArchivePath>)
    ensures SortedBy(r, YearKey())
    ensures multiset(r) == multiset(paths)
  {
    if |paths| == 0 then []
    else
      assert paths == [paths[0]] + paths[1..];
      Insert(paths[0], SortByYear(paths[1..]))
  }

  /** Inserting into a year-sorted list puts the new archive in front of
      the archives of its own year and leaves every other year's archives
      as they were. */
  lemma {:induction false} InsertByYear(p: ArchivePath, s: seq<ArchivePath>, y: int)
    requires SortedBy(s, YearKey())
    ensures Filter(Insert(p, s), YearIs(y)) == (if p.year == y then [p] else []) + Filter(s, YearIs(y))
  {
    if |s| == 0 {
      FilterCons(p, s, YearIs(y));
    } else if p.year <= s[0].year {
      FilterCons(p, s, YearIs(y));
    } else {
      var rest := Insert(p, s[1..]);
      InsertByYear(p, s[1..], y);
      assert Insert(p, s) == [s[0]] + rest;
      assert s == [s[0]] + s[1..];
      InsertPastHead(p, s[0], s[1..], rest, y);
    }
  }

  lemma InsertPastHead(p: ArchivePath, h: ArchivePath, t: seq<ArchivePath>, rest: seq<ArchivePath>, y: int)
    requires h.year < p.year
    requires Filter(rest, YearIs(y)) == (if p.year == y then [p] else []) + Filter(t, YearIs(y))
    ensures Filter([h] + rest, YearIs(y)) == (if p.year == y then [p] else []) + Filter([h] + t, YearIs(y))
  {
    FilterCons(h, rest, YearIs(y));
    FilterCons(h, t, YearIs(y));
    var u, v, b := (if h.year == y then [h] else []), (if p.year == y then [p] else []), Filter(t, YearIs(y));
    assert u == [] || v == [];
    assert u + (v + b) == v + (u + b);
  }

  /** `sorted` is stable: the archives of each year keep the order in
      which they were found. */
  lemma {:induction false} SortByYearStable(paths: seq<ArchivePath>, y: int)
    ensures Filter(SortByYear(paths), YearIs(y)) == Filter(paths, YearIs(y))
  {
    if |paths| > 0 {
      var x, t := paths[0], paths[1..];
      assert paths == [x] + t;
      var sorted := SortByYear(t);
      assert SortByYear(paths) == Insert(x, sorted);
      SortByYearStable(t, y);
      InsertByYear(x, sorted, y);
      FilterCons(x, t, YearIs(y));
    }
  }

  /** The years an archive may belong to: the training years when
      training, the validation years otherwise. */
  function AllowedYears(params: Params): (ys: seq<int>)
    ensures params.train ==> ys == params.trainYears
    ensures !params.train ==> ys == params.validYears
  {
    if params.train then params.trainYears else params.validYears
  }

  /** The year-sorted archives of one tier whose year is allowed, as in
      `_get_files_stats`. */
  function ScanTier(found: seq<ArchivePath>, allowed: seq<int>): (r: seq<ArchivePath>)
    ensures SortedBy(r, YearKey())
    ensures forall p :: p in r <==> p in found && p.year in allowed
    ensures forall y :: Filter(r, YearIs(y)) == if y in allowed then Filter(found, YearIs(y)) else []
  {
    var sorted := SortByYear(found);
    assert forall p :: p in sorted <==> p in found by {
      forall p
        ensures p in sorted <==> p in found
      {
        assert p in sorted <==> p in multiset(sorted);
        assert p in found <==> p in multiset(found);
      }
    }
    FilterKeepsSortedBy(sorted, InYears(allowed), YearKey());
    ScanTierByYear(found, allowed);
    Filter(sorted, InYears(allowed))
  }

  /** Each allowed year's archives come out once each, in the order they
      were found; the archives of other years are dropped. */
  lemma ScanTierByYear(found: seq<ArchivePath>, allowed: seq<int>)
    ensures forall y :: Filter(Filter(SortByYear(found), InYears(allowed)), YearIs(y))
                        == if y in allowed then Filter(found, YearIs(y)) else []
  {
    var sorted := SortByYear(found);
    forall y
      ensures Filter(Filter(sorted, InYears(allowed)), YearIs(y))
              == if y in allowed then Filter(found, YearIs(y)) else []
    {
      if y in allowed {
        FilterOfFilter(sorted, InYears(allowed), YearIs(y));
        SortByYearStable(found, y);
      } else {
        FilterNone(Filter(sorted, InYears(allowed)), YearIs(y));
      }
    }
  }

  /** The year check as written: the year list it compares against was
      itself overwritten with the high-resolution years, so the check
      compares the high-resolution list with itself. */
  function CheckYearListsAsWritten(lowYears: seq<int>, highYears: seq<int>): (r: Result<(), DatasetError>)
    ensures r.Success?
  {
    var selfYears := highYears;
    if highYears == selfYears then Success(()) else Failure(YearListMismatch)
  }

  /** Low-resolution years 2019 and 2021 against high-resolution years
      2019 and 2020 pass the check as written, and fail the intended one. */
  lemma AsWrittenAcceptsMismatch()
    ensures [2019, 2021] != [2019, 2020]
    ensures CheckYearListsAsWritten([2019, 2021], [2019, 2020]).Success?
    ensures CheckYearLists([2019, 2021], [2019, 2020]) == Failure(YearListMismatch)
  {
  }

  /** What the mismatch above leads to as written: the year list used for
      lookup is the high-resolution one, so for an hour of 2020 the lookup
      picks the low-resolution archive at position 1, which holds 2021. The
      exact-time read that follows in the loader then finds no such hour in
      that archive; the read itself is not modelled. */
  lemma AsWrittenPicksWrongYear()
    ensures var lowHandles := [ArchivePath("2019.zarr", 2019), ArchivePath("2021.zarr", 2021)];
            var t := YearStart(2020);
            && InDatetimeRange(t) && InDatetimeRange(t + 1)
            && YearOf(t) == 2020
            && GetDsHandles([2019, 2020], lowHandles, t, t + 1) == Success((lowHandles[1], lowHandles[1], true))
            && lowHandles[1].year != YearOf(t)
  {
    var t := YearStart(2020);
    TimelineBounds(2020, 2020);
    YearStartStep(2020);
    YearOfUnique(t, 2020);
    YearOfUnique(t + 1, 2020);
    var ys := [2019, 2020];
    assert FirstOccurrence(ys, 2020, 1);
    assert IndexOf(ys, 2020) == Some(1);
  }

  /** The year check as intended: both tiers list the same years. */
  function CheckYearLists(lowYears: seq<int>, highYears: seq<int>): (r: Result<(), DatasetError>)
    ensures r.Success? <==> lowYears == highYears
    ensures r.Failure? ==> r.error == YearListMismatch
  {
    if highYears == lowYears then Success(()) else Failure(YearListMismatch)
  }

  /** `[stored.index(c) for c in names]`: fails on the first unknown name. */
  function ChannelIndices(stored: seq<string>, names: seq<string>): (r: Result<seq<nat>, DatasetError>)
    ensures r.Success? <==> forall c :: c in names ==> c in stored
    ensures r.Success? ==>
              && |r.value| == |names|
              && forall k :: 0 <= k < |names| ==> FirstOccurrence(stored, names[k], r.value[k])
    ensures r.Failure? ==>
              exists k :: 0 <= k < |names| && r.error == UnknownChannel(names[k]) && names[k] !in stored
                          && forall j :: 0 <= j < k ==> names[j] in stored
  {
    if |names| == 0 then Success([])
    else
      assert names == [names[0]] + names[1..];
      match IndexOf(stored, names[0])
      case None => Failure(UnknownChannel(names[0]))
      case Some(i) =>
        var rest := ChannelIndices(stored, names[1..]);
        if rest.Failure? then
          ghost var k :| 0 <= k < |names[1..]| && rest.error == UnknownChannel(names[1..][k]) && names[1..][k] !in stored
                         && forall j :: 0 <= j < k ==> names[1..][j] in stored;
          assert forall j :: 0 <= j < k + 1 ==> names[j] in stored by {
            forall j | 0 <= j < k + 1
              ensures names[j] in stored
            {
              if j > 0 {
                assert names[j] == names[1..][j - 1];
              }
            }
          }
          Failure(rest.error)
        else
          Success([i] + rest.value)
  }

  /** The kept channels of one tier and their storage positions. */
  datatype KeptChannels = KeptChannels(names: seq<string>, indices: seq<nat>)

  /** Channel resolution of `__init__`: "all" keeps the stored list, a
      list keeps the named channels in the requested order; each is mapped
      to its (first) storage position. */
  function ResolveChannels(stored: seq<string>, req: ChannelRequest): (r: Result<KeptChannels, DatasetError>)
    ensures req.AllChannels? ==> r.Success? && r.value.names == stored
    ensures req.Channels? ==> (r.Success? <==> forall c :: c in req.names ==> c in stored)
    ensures req.Channels? && r.Success? ==> r.value.names == req.names
    ensures r.Success? ==>
              && |r.value.indices| == |r.value.names|
              && forall k :: 0 <= k < |r.value.names| ==> FirstOccurrence(stored, r.value.names[k], r.value.indices[k])
    ensures r.Failure? ==> r.error.UnknownChannel? && r.error.name !in stored
  {
    var names := match req case AllChannels => stored case Channels(ns) => ns;
    var idx :- ChannelIndices(stored, names);
    Success(KeptChannels(names, idx))
  }

  /** With distinct stored names, "all" keeps every channel at its own
      position. */
  lemma ResolveAllIsIdentity(stored: seq<string>)
    requires forall i, j :: 0 <= i < j < |stored| ==> stored[i] != stored[j]
    ensures ResolveChannels(stored, AllChannels) == Success(KeptChannels(stored, Range(0, |stored| - 1)))
  {
    var r := ResolveChannels(stored, AllChannels).value;
    forall k | 0 <= k < |stored|
      ensures r.indices[k] == k
    {
      assert FirstOccurrence(stored, stored[k], k);
      FirstOccurrenceUnique(stored, stored[k], k, r.indices[k]);
    }
    assert r.indices == Range(0, |stored| - 1);
  }

  /** Channels ['b', 'd'] out of ['a', 'b', 'c', 'd', 'e'] are read from
      positions 1 and 3, in the requested order. */
  lemma ResolveChannelsExample()
    ensures ResolveChannels(["a", "b", "c", "d", "e"], Channels(["b", "d"]))
            == Success(KeptChannels(["b", "d"], [1, 3]))
  {
    var stored := ["a", "b", "c", "d", "e"];
    var names := ["b", "d"];
    ExamplePositions(stored);
    var idx := ChannelIndices(stored, names);
    assert idx.Success? by {
      assert names[0] == stored[1] && names[1] == stored[3];
    }
    FirstOccurrenceUnique(stored, "b", 1, idx.value[0]);
    FirstOccurrenceUnique(stored, "d", 3, idx.value[1]);
    assert idx.value == [1, 3];
  }

  lemma ExamplePositions(stored: seq<string>)
    requires stored == ["a", "b", "c", "d", "e"]
    ensures FirstOccurrence(stored, "b", 1) && FirstOccurrence(stored, "d", 3)
  {
    assert stored[0] != "b" by { assert stored[0][0] != "b"[0]; }
    assert stored[0] != "d" by { assert stored[0][0] != "d"[0]; }
    assert stored[1] != "d" by { assert stored[1][0] != "d"[0]; }
    assert stored[2] != "d" by { assert stored[2][0] != "d"[0]; }
  }

  /** The constructed dataset: the archives of both tiers (handle k is the
      archive at position k), the year list used for handle lookup, the
      sample index and the kept channels of both tiers. */
  datatype Dataset = Dataset(
    lowPaths: seq<ArchivePath>,
    highPaths: seq<ArchivePath>,
    years: seq<int>,
    index: PairIndex,
    low: KeptChannels,
    high: KeptChannels)

  /** What a constructed dataset satisfies: the handle lists of both tiers
      hold, position by position, the years of the year list. */
  predicate DatasetWf(ds: Dataset) {
    && Wf(ds.index)
    && YearsOf(ds.lowPaths) == ds.years
    && YearsOf(ds.highPaths) == ds.years
  }

  /** `__init__` with `_get_files_stats`, using the intended year check.
      `lowStored` and `highStored` are the channel lists read from the first
      archive of each tier. It succeeds exactly when the low-resolution tier
      has an allowed archive, the sample index can be built from its years,
      both tiers list the same years and every requested channel is stored. */
  function Build(params: Params, lowFound: seq<ArchivePath>, highFound: seq<ArchivePath>,
                 lowStored: seq<string>, highStored: seq<string>): (r: Result<Dataset, DatasetError>)
    ensures ScanTier(lowFound, AllowedYears(params)) == [] ==> r == Failure(NoArchives)
    ensures YearsOf(ScanTier(lowFound, AllowedYears(params))) != YearsOf(ScanTier(highFound, AllowedYears(params)))
            ==> r.Failure?
    ensures var lowPaths := ScanTier(lowFound, AllowedYears(params));
            && lowPaths != []
            && ComputeTotalSamples(YearsOf(lowPaths), params.dt).Success?
            && YearsOf(lowPaths) == YearsOf(ScanTier(highFound, AllowedYears(params)))
            && ResolveChannels(lowStored, params.keptLow).Success?
            && ResolveChannels(highStored, params.keptHigh).Success?
            ==> r.Success?
    ensures r.Success? ==>
              var ds := r.value;
              && DatasetWf(ds)
              && |ds.years| > 0
              && (forall k :: 0 <= k < |ds.years| ==> ds.years[k] in AllowedYears(params))
              && (forall p :: p in ds.lowPaths <==> p in lowFound && p.year in AllowedYears(params))
              && (forall p :: p in ds.highPaths <==> p in highFound && p.year in AllowedYears(params))
              && ds.lowPaths == ScanTier(lowFound, AllowedYears(params))
              && ds.highPaths == ScanTier(highFound, AllowedYears(params))
              && ComputeTotalSamples(ds.years, params.dt) == Success(ds.index)
              && ds.low.names == (if params.keptLow.AllChannels? then lowStored else params.keptLow.names)
              && ds.high.names == (if params.keptHigh.AllChannels? then highStored else params.keptHigh.names)
              && Success(ds.low) == ResolveChannels(lowStored, params.keptLow)
              && Success(ds.high) == ResolveChannels(highStored, params.keptHigh)
  {
    var allowed := AllowedYears(params);
    var lowPaths := ScanTier(lowFound, allowed);
    var years := YearsOf(lowPaths);
    if |lowPaths| == 0 then Failure(NoArchives)
    else
      var index :- ComputeTotalSamples(years, params.dt);
      var highPaths := ScanTier(highFound, allowed);
      var _ :- CheckYearLists(years, YearsOf(highPaths));
      var low :- ResolveChannels(lowStored, params.keptLow);
      var high :- ResolveChannels(highStored, params.keptHigh);
      assert forall k :: 0 <= k < |years| ==> years[k] in allowed by {
        forall k | 0 <= k < |years|
          ensures years[k] in allowed
        {
          assert lowPaths[k] in lowPaths;
        }
      }
      Success(Dataset(lowPaths, highPaths, YearsOf(highPaths), index, low, high))
  }

  /** One 2019 archive in each tier, training on 2019 with a one-hour lead
      time and all channels: the dataset is built and serves 8759 samples. */
  lemma BuildExample()
    ensures var params := Params(true, [2019], [], 1, AllChannels, AllChannels);
            var low, high := ArchivePath("low/2019.zarr", 2019), ArchivePath("high/2019.zarr", 2019);
            var r := Build(params, [low], [high], ["t2m"], ["u10"]);
            && r.Success?
            && r.value.lowPaths == [low] && r.value.highPaths == [high]
            && DatasetLen(r.value) == 8759
  {
    var params := Params(true, [2019], [], 1, AllChannels, AllChannels);
    var low, high := ArchivePath("low/2019.zarr", 2019), ArchivePath("high/2019.zarr", 2019);
    Example2019();
    BuildOneArchiveEach(params, low, high, ["t2m"], ["u10"]);
  }

  /** With one archive of the same year in each tier, that year allowed and
      all channels kept, the dataset is built from exactly those archives
      whenever the year's sample index can be computed. */
  lemma BuildOneArchiveEach(params: Params, low: ArchivePath, high: ArchivePath,
                            lowStored: seq<string>, highStored: seq<string>)
    requires AllowedYears(params) == [low.year] && high.year == low.year
    requires ComputeTotalSamples([low.year], params.dt).Success?
    requires params.keptLow.AllChannels? && params.keptHigh.AllChannels?
    ensures var r := Build(params, [low], [high], lowStored, highStored);
            && r.Success?
            && r.value.lowPaths == [low] && r.value.highPaths == [high]
            && r.value.index == ComputeTotalSamples([low.year], params.dt).value
  {
    SingleArchiveScan(low);
    SingleArchiveScan(high);
    assert YearsOf([low]) == [low.year] == YearsOf([high]);
  }

  lemma SingleArchiveScan(p: ArchivePath)
    ensures ScanTier([p], [p.year]) == [p]
  {
    var r := ScanTier([p], [p.year]);
    assert p in r;
    assert forall k :: 0 <= k < |r| ==> r[k] in r;
    assert |r| <= 1 by {
      assert SortByYear([p]) == [p] by {
        assert SortByYear([p]) == Insert(p, SortByYear([]));
      }
    }
  }

  /** `__len__`: the number of indices, counted from either end, that the
      time lookup accepts. */
  function DatasetLen(ds: Dataset): (n: nat)
    ensures DatasetWf(ds) ==> forall i :: IdxToDatetime(ds.index, i).Success? <==> -(n as int) <= i < n
  {
    Len(ds.index)
  }

  /** The times and archives one sample is read from. */
  datatype ItemSources = ItemSources(inp: int, tar: int, highInp: ArchivePath, highTar: ArchivePath, lowInp: ArchivePath)

  /** The lookup part of `__getitem__`: the time pair, then the
      high-resolution handles of input and target, then the low-resolution
      handles (only the input one is read, but both are resolved). */
  function GetItemSources(ds: Dataset, i: int): (r: Result<ItemSources, DatasetError>)
    requires DatasetWf(ds)
    ensures r.Success? ==> -(DatasetLen(ds) as int) <= i < DatasetLen(ds)
    ensures r.Success? ==>
              && r.value.tar - r.value.inp == ds.index.dt
              && InDatetimeRange(r.value.inp) && InDatetimeRange(r.value.tar)
              && r.value.highInp.year == YearOf(r.value.inp)
              && r.value.highTar.year == YearOf(r.value.tar)
              && r.value.lowInp.year == YearOf(r.value.inp)
              && r.value.highInp in ds.highPaths && r.value.highTar in ds.highPaths
              && r.value.lowInp in ds.lowPaths
    ensures r.Success? && 0 <= i ==> r.value.inp == ds.index.valid[i]
    ensures r.Success? ==> (r.value.inp, r.value.tar) == IdxToDatetime(ds.index, i).value
    ensures r.Success? ==> forall a :: FirstOccurrence(ds.years, YearOf(r.value.inp), a) ==>
              r.value.highInp == ds.highPaths[a] && r.value.lowInp == ds.lowPaths[a]
    ensures r.Success? ==> forall b :: FirstOccurrence(ds.years, YearOf(r.value.tar), b) ==>
              r.value.highTar == ds.highPaths[b]
  {
    var pair :- IdxToDatetime(ds.index, i);
    var (inp, tar) := pair;
    assert |ds.years| == |ds.highPaths| == |ds.lowPaths|;
    var highs :- GetDsHandles(ds.years, ds.highPaths, inp, tar);
    // Both tiers list the same years with one handle each, so the
    // low-resolution lookup succeeds whenever the high-resolution one did.
    TiersAgree(ds, inp, tar);
    var lows := GetDsHandles(ds.years, ds.lowPaths, inp, tar).value;
    HandleYear(ds.years, ds.highPaths, inp, tar, highs);
    HandleYear(ds.years, ds.lowPaths, inp, tar, lows);
    Success(ItemSources(inp, tar, highs.0, highs.1, lows.0))
  }

  /** The two tiers hold one archive per listed year, so a lookup that
      succeeds on one tier succeeds on the other. */
  lemma TiersAgree(ds: Dataset, inp: int, tar: int)
    requires DatasetWf(ds)
    requires InDatetimeRange(inp) && InDatetimeRange(tar)
    requires GetDsHandles(ds.years, ds.highPaths, inp, tar).Success?
    ensures GetDsHandles(ds.years, ds.lowPaths, inp, tar).Success?
  {
    assert |ds.years| == |ds.lowPaths|;
  }

  /** A handle found for a timestamp is an archive of that timestamp's year. */
  lemma HandleYear(years: seq<int>, paths: seq<ArchivePath>, inp: int, tar: int, found: (ArchivePath, ArchivePath, bool))
    requires YearsOf(paths) == years
    requires InDatetimeRange(inp) && InDatetimeRange(tar)
    requires GetDsHandles(years, paths, inp, tar) == Success(found)
    ensures found.0.year == YearOf(inp) && found.1.year == YearOf(tar)
    ensures found.0 in paths && found.1 in paths
  {
    var a := IndexOf(years, YearOf(inp)).value;
    var b := IndexOf(years, YearOf(tar)).value;
    assert found.0 == paths[a] && found.1 == paths[b];
  }

  /** With every year between the earliest and the latest present and a
      non-negative lead time, every index below `__len__` can be served. */
  lemma ContiguousDatasetServesAll(ds: Dataset, i: int)
    requires DatasetWf(ds)
    requires ComputeTotalSamples(ds.years, ds.index.dt) == Success(ds.index)
    requires CoversYears(ds.years, SeqMin(ds.years), SeqMax(ds.years))
    requires 0 <= ds.index.dt
    requires 0 <= i < DatasetLen(ds)
    ensures GetItemSources(ds, i).Success?
  {
    ContiguousYearsResolve(ds.years, ds.highPaths, ds.index.dt, ds.index, i);
    var pair := IdxToDatetime(ds.index, i).value;
    ItemSourcesViaHandles(ds, i, pair.0, pair.1);
  }

  /** A year left out between the earliest and the latest makes the sample
      at its first hour count towards `__len__` yet fail to load. */
  lemma GapYearItemFails(ds: Dataset, g: int, i: int)
    requires DatasetWf(ds)
    requires ComputeTotalSamples(ds.years, ds.index.dt) == Success(ds.index)
    requires SeqMin(ds.years) < g < SeqMax(ds.years) && g !in ds.years
    requires YearStart(g) + ds.index.dt <= YearEnd(SeqMax(ds.years))
    requires i == YearStart(g) - ds.index.first
    ensures 0 <= i < DatasetLen(ds)
    ensures GetItemSources(ds, i) == Failure(YearNotFound(g))
  {
    var t := YearStart(g);
    assert YearOf(t) == g by {
      YearStartStep(g);
      YearOfUnique(t, g);
    }
    assert 0 <= i < DatasetLen(ds) && ds.index.valid[i] == t by {
      GapYearFails(ds.years, ds.highPaths, ds.index.dt, ds.index, g);
    }
    var pair := IdxToDatetime(ds.index, i).value;
    ItemServedIffYearsListed(ds, i, pair.0, pair.1);
  }

  /** Sample i, whose input and target hours are inp and tar, loads exactly
      when both their years are listed; otherwise the input's missing year
      is reported first, then the target's. */
  predicate ServedIffListed(ds: Dataset, i: int, inp: int, tar: int)
    requires DatasetWf(ds)
    requires InDatetimeRange(inp) && InDatetimeRange(tar)
  {
    var r := GetItemSources(ds, i);
    && (r.Success? <==> YearOf(inp) in ds.years && YearOf(tar) in ds.years)
    && (YearOf(inp) !in ds.years ==> r == Failure(YearNotFound(YearOf(inp))))
    && (YearOf(inp) in ds.years && YearOf(tar) !in ds.years ==> r == Failure(YearNotFound(YearOf(tar))))
  }

  /** Sample i, whose time pair is (inp, tar), loads exactly when the years
      of its input and target hours are both listed; otherwise the first
      missing year of the two is reported. */
  lemma ItemServedIffYearsListed(ds: Dataset, i: int, inp: int, tar: int)
    requires DatasetWf(ds)
    requires IdxToDatetime(ds.index, i) == Success((inp, tar))
    ensures InDatetimeRange(inp) && InDatetimeRange(tar)
    ensures ServedIffListed(ds, i, inp, tar)
  {
    ItemSourcesViaHandles(ds, i, inp, tar);
    assert |ds.years| == |ds.highPaths|;
    HandlesIffListed(ds.years, ds.highPaths, inp, tar);
    var r := GetItemSources(ds, i);
    var yi, yt := YearOf(inp), YearOf(tar);
    SameOutcome(r, GetDsHandles(ds.years, ds.highPaths, inp, tar), yi, yt, ds.years);
  }

  /** A sample loads exactly when its high-resolution handles are found,
      and fails with the error of that lookup otherwise. */
  lemma ItemSourcesViaHandles(ds: Dataset, i: int, inp: int, tar: int)
    requires DatasetWf(ds)
    requires IdxToDatetime(ds.index, i) == Success((inp, tar))
    ensures InDatetimeRange(inp) && InDatetimeRange(tar)
    ensures var h := GetDsHandles(ds.years, ds.highPaths, inp, tar);
            && (GetItemSources(ds, i).Success? <==> h.Success?)
            && (h.Failure? ==> GetItemSources(ds, i) == Failure(h.error))
  {
  }

  /** With a handle for every listed year, the lookup succeeds exactly
      when both years are listed, and reports the input's missing year
      before the target's. */
  lemma HandlesIffListed<H>(years: seq<int>, handles: seq<H>, inp: int, tar: int)
    requires InDatetimeRange(inp) && InDatetimeRange(tar)
    requires |years| <= |handles|
    ensures var h := GetDsHandles(years, handles, inp, tar);
            && (h.Success? <==> YearOf(inp) in years && YearOf(tar) in years)
            && (YearOf(inp) !in years ==> h == Failure(YearNotFound(YearOf(inp))))
            && (YearOf(inp) in years && YearOf(tar) !in years ==> h == Failure(YearNotFound(YearOf(tar))))
  {
  }

  /** An outcome that mirrors a lookup's success and error inherits what is
      known about the lookup. */
  lemma SameOutcome<A, B>(r: Result<A, DatasetError>, h: Result<B, DatasetError>, yi: int, yt: int, years: seq<int>)
    requires (r.Success? <==> h.Success?) && (h.Failure? ==> r == Failure(h.error))
    requires h.Success? <==> yi in years && yt in years
    requires yi !in years ==> h == Failure(YearNotFound(yi))
    requires yi in years && yt !in years ==> h == Failure(YearNotFound(yt))
    ensures r.Success? <==> yi in years && yt in years
    ensures yi !in years ==> r == Failure(YearNotFound(yi))
    ensures yi in years && yt !in years ==> r == Failure(YearNotFound(yt))
  {
  }
}

=== FILE: sample_index.dfy ===
/** The paired-sample time index of the StormCast small-data loader:
    the dense hourly timeline spanning the configured years, the inputs
    whose target lies `dt` hours later inside that timeline, the mapping
    from a flat sample index to an (input, target) pair, and the lookup of
    the per-year archive handle that holds a timestamp. */
module SampleIndex {
  import opened Wrappers
  import opened SeqUtil
  import opened Calendar

  /** The Python exceptions raised while building or querying the dataset. */
  datatype DatasetError =
    | NoArchives                     // indexing an empty path or year list (IndexError)
    | YearOutOfRange(year: int)      // `datetime(year=...)` outside 1..9999 (ValueError)
    | TimeOverflow                   // `datetime + timedelta` out of range (OverflowError)
    | IndexOutOfRange(index: int)    // `valid_samples[i]` (IndexError)
    | YearNotFound(year: int)        // `years.index(year)` (ValueError)
    | HandleOutOfRange(position: nat) // `handles[i]` (IndexError)
    | YearListMismatch               // the low/high-res year assertion (AssertionError)
    | UnknownChannel(name: string)   // `channels.index(c)` (ValueError)

  /** The set of missing samples; the loader always leaves it empty. */
  const NoMissing: set<int> := {}

  /** The computed index: lead time, first and last timeline hour, and the
      ascending list of valid input hours (`valid_samples`). */
  datatype PairIndex = PairIndex(dt: int, first: int, last: int, valid: seq<int>)

  predicate IsValidInput(t: int, dt: int, last: int, missing: set<int>) {
    t !in missing && t + dt <= last && t + dt !in missing
  }

  function KeepsInput(dt: int, last: int, missing: set<int>): int -> bool {
    t => IsValidInput(t, dt, last, missing)
  }

  /** What every index built by ComputeTotalSamples satisfies. */
  predicate Wf(ix: PairIndex) {
    && 0 <= ix.first <= ix.last <= MaxHour
    && StrictlyAscending(ix.valid)
    && forall k :: 0 <= k < |ix.valid| ==>
         && ix.first <= ix.valid[k] <= ix.last
         && 0 <= ix.valid[k] + ix.dt <= ix.last
  }

  /** Number of valid inputs on a dense timeline of h hours with lead time dt. */
  function PairCount(h: int, dt: int): int {
    if dt <= 0 then h else if dt >= h then 0 else h - dt
  }

  /** What the loader's index promises: the valid inputs are exactly the
      timeline hours whose target does not pass the last hour, they form
      the leading hours of the timeline in order, and there are
      PairCount(h, dt) of them for a timeline of h hours. */
  ghost predicate DenseIndex(ix: PairIndex) {
    && Wf(ix)
    && (forall t :: t in ix.valid <==> ix.first <= t <= ix.last && t + ix.dt <= ix.last)
    && |ix.valid| == PairCount(ix.last - ix.first + 1, ix.dt)
    && (forall k :: 0 <= k < |ix.valid| ==> ix.valid[k] == ix.first + k)
  }

  /** The index over the hours first..last: keep each hour whose target is
      neither missing nor past `last`. */
  function BuildIndex(first: int, last: int, dt: int): (ix: PairIndex)
    requires 0 <= first <= last <= MaxHour
    requires 0 <= first + dt && last + dt <= MaxHour
    ensures ix.dt == dt && ix.first == first && ix.last == last
    ensures DenseIndex(ix)
  {
    var all := Range(first, last);
    var valid := Filter(all, KeepsInput(dt, last, NoMissing));
    ValidPrefix(first, last, dt);
    PrefixIsDense(first, last, dt, valid);
    PairIndex(dt, first, last, valid)
  }

  lemma PrefixIsDense(first: int, last: int, dt: int, valid: seq<int>)
    requires 0 <= first <= last <= MaxHour
    requires 0 <= first + dt && last + dt <= MaxHour
    requires valid == Range(first, last)[..PairCount(last - first + 1, dt)]
    ensures DenseIndex(PairIndex(dt, first, last, valid))
  {
    var n := PairCount(last - first + 1, dt);
    assert |valid| == n;
    assert forall k :: 0 <= k < n ==> valid[k] == first + k;
    forall t | first <= t <= last && t + dt <= last
      ensures t in valid
    {
      assert valid[t - first] == t;
    }
  }

  /** On a dense hourly timeline with no missing hours the valid inputs are
      exactly the leading hours whose target stays on the timeline. */
  lemma ValidPrefix(first: int, last: int, dt: int)
    requires first <= last
    ensures var all := Range(first, last);
            var n := PairCount(last - first + 1, dt);
            Filter(all, KeepsInput(dt, last, NoMissing)) == all[..n]
  {
    var all := Range(first, last);
    var n := PairCount(last - first + 1, dt);
    var f := KeepsInput(dt, last, NoMissing);
    assert forall i :: 0 <= i < |all| ==> (f(all[i]) <==> i < n);
    FilterPrefix(all, f, n);
  }

  /** `compute_total_samples`: the timeline runs from January 1 00:00 of the
      earliest year to December 31 23:00 of the latest one, every hour in
      between included; it fails on an empty year list, on a year a
      `datetime` cannot hold (the earliest year is built first, so it is
      the one reported when both are out of range), and when some target
      `t + dt` leaves the `datetime` range. */
  function ComputeTotalSamples(years: seq<int>, dt: int): (r: Result<PairIndex, DatasetError>)
    ensures |years| == 0 ==> r == Failure(NoArchives)
    ensures |years| > 0 && !(MinYear <= SeqMin(years) <= MaxYear) ==>
              r == Failure(YearOutOfRange(SeqMin(years)))
    ensures |years| > 0 && MinYear <= SeqMin(years) <= MaxYear < SeqMax(years) ==>
              r == Failure(YearOutOfRange(SeqMax(years)))
    ensures r.Success? <==>
              && |years| > 0
              && MinYear <= SeqMin(years) && SeqMax(years) <= MaxYear
              && InDatetimeRange(YearStart(SeqMin(years)) + dt)
              && InDatetimeRange(YearEnd(SeqMax(years)) + dt)
    ensures r.Success? ==>
              && r.value.dt == dt
              && r.value.first == YearStart(SeqMin(years))
              && r.value.last == YearEnd(SeqMax(years))
              && DenseIndex(r.value)
  {
    if |years| == 0 then Failure(NoArchives)
    else
      var lo := SeqMin(years);
      var hi := SeqMax(years);
      if lo < MinYear || lo > MaxYear then Failure(YearOutOfRange(lo))
      else if hi > MaxYear then Failure(YearOutOfRange(hi))
      else
        var first := YearStart(lo);
        var last := YearEnd(hi);
        TimelineBounds(lo, hi);
        if first + dt < 0 || last + dt > MaxHour then Failure(TimeOverflow)
        else Success(BuildIndex(first, last, dt))
  }

  /** The timeline of years lo..hi starts and ends inside the range a
      `datetime` can hold. */
  lemma TimelineBounds(lo: int, hi: int)
    requires MinYear <= lo <= hi <= MaxYear
    ensures 0 <= YearStart(lo) <= YearEnd(hi) <= MaxHour
  {
    YearStartGrowth(1, lo);
    YearStartMonotone(lo, hi + 1);
    if hi < MaxYear {
      YearStartMonotone(hi + 1, MaxYear + 1);
    }
  }

  /** `__len__`: the number of servable samples, PairCount of the
      timeline's hours and the lead time. */
  function Len(ix: PairIndex): (n: nat)
    ensures DenseIndex(ix) ==> n == PairCount(ix.last - ix.first + 1, ix.dt)
  {
    |ix.valid|
  }

  /** `_global_idx_to_datetime`: the input hour at the given position of the
      valid list and its target `dt` hours later. Python list indexing also
      accepts -n <= i < 0, counting from the end. */
  function IdxToDatetime(ix: PairIndex, i: int): (r: Result<(int, int), DatasetError>)
    requires Wf(ix)
    ensures r.Success? <==> -(Len(ix) as int) <= i < Len(ix)
    ensures r.Failure? ==> r.error == IndexOutOfRange(i)
    ensures 0 <= i < Len(ix) ==> r.Success? && r.value.0 == ix.valid[i]
    ensures i < 0 && r.Success? ==> r.value.0 == ix.valid[Len(ix) + i]
    ensures r.Success? ==>
              && r.value.1 - r.value.0 == ix.dt
              && ix.first <= r.value.0 && r.value.1 <= ix.last
              && InDatetimeRange(r.value.0) && InDatetimeRange(r.value.1)
  {
    var n := |ix.valid|;
    if 0 <= i < n then Success((ix.valid[i], ix.valid[i] + ix.dt))
    else if -n <= i < 0 then Success((ix.valid[n + i], ix.valid[n + i] + ix.dt))
    else Failure(IndexOutOfRange(i))
  }

  /** Input hours strictly increase with the sample index. */
  lemma IdxToDatetimeMonotone(ix: PairIndex, i: int, j: int)
    requires Wf(ix)
    requires 0 <= i < j < Len(ix)
    ensures IdxToDatetime(ix, i).value.0 < IdxToDatetime(ix, j).value.0
  {
  }

  /** `_get_ds_handles`: the handle of the first listed year equal to each
      timestamp's calendar year, input first, and whether both are the same. */
  function GetDsHandles<H(==)>(years: seq<int>, handles: seq<H>, inp: int, tar: int): (r: Result<(H, H, bool), DatasetError>)
    requires InDatetimeRange(inp) && InDatetimeRange(tar)
    ensures YearOf(inp) !in years ==> r == Failure(YearNotFound(YearOf(inp)))
    ensures YearOf(inp) in years && YearOf(tar) !in years && |years| <= |handles| ==>
              r == Failure(YearNotFound(YearOf(tar)))
    ensures r.Success? ==> YearOf(inp) in years && YearOf(tar) in years
    ensures YearOf(inp) in years && YearOf(tar) in years && |years| <= |handles| ==> r.Success?
    ensures forall a :: FirstOccurrence(years, YearOf(inp), a) && a < |handles| && r.Success? ==>
              r.value.0 == handles[a]
    ensures forall b :: FirstOccurrence(years, YearOf(tar), b) && b < |handles| && r.Success? ==>
              r.value.1 == handles[b]
    ensures r.Success? ==> (r.value.2 <==> r.value.0 == r.value.1)
  {
    var yi := YearOf(inp);
    match IndexOf(years, yi)
    case None => Failure(YearNotFound(yi))
    case Some(a) =>
      if a >= |handles| then Failure(HandleOutOfRange(a))
      else
        var yt := YearOf(tar);
        match IndexOf(years, yt)
        case None => Failure(YearNotFound(yt))
        case Some(b) =>
          if b >= |handles| then Failure(HandleOutOfRange(b))
          else Success((handles[a], handles[b], handles[a] == handles[b]))
  }

  /** Every year from `lo` to `hi` appears in the list. */
  predicate CoversYears(years: seq<int>, lo: int, hi: int) {
    forall y :: lo <= y <= hi ==> y in years
  }

  /** With no year missing between the earliest and the latest and a
      non-negative lead time, every servable sample resolves to a handle for both its timestamps. */
  lemma ContiguousYearsResolve<H>(years: seq<int>, handles: seq<H>, dt: int, ix: PairIndex, i: int)
    requires ComputeTotalSamples(years, dt) == Success(ix)
    requires CoversYears(years, SeqMin(years), SeqMax(years))
    requires |years| <= |handles|
    requires 0 <= dt
    requires 0 <= i < Len(ix)
    ensures IdxToDatetime(ix, i).Success?
    ensures GetDsHandles(years, handles, IdxToDatetime(ix, i).value.0, IdxToDatetime(ix, i).value.1).Success?
  {
    var lo, hi := SeqMin(years), SeqMax(years);
    ResolveWithin(years, handles, ix, lo, hi, i);
  }

  lemma ResolveWithin<H>(years: seq<int>, handles: seq<H>, ix: PairIndex, lo: int, hi: int, i: int)
    requires Wf(ix) && 0 <= ix.dt
    requires MinYear <= lo <= hi && ix.first == YearStart(lo) && ix.last == YearEnd(hi)
    requires CoversYears(years, lo, hi)
    requires |years| <= |handles|
    requires 0 <= i < Len(ix)
    ensures IdxToDatetime(ix, i).Success?
    ensures GetDsHandles(years, handles, IdxToDatetime(ix, i).value.0, IdxToDatetime(ix, i).value.1).Success?
  {
    var inp, tar := ix.valid[i], ix.valid[i] + ix.dt;
    assert IdxToDatetime(ix, i) == Success((inp, tar));
    HandlesResolve(years, handles, lo, hi, inp, tar);
  }

  /** Two hours inside the timeline of a contiguous year list both find
      a handle. */
  lemma HandlesResolve<H>(years: seq<int>, handles: seq<H>, lo: int, hi: int, inp: int, tar: int)
    requires MinYear <= lo <= hi && CoversYears(years, lo, hi) && |years| <= |handles|
    requires YearStart(lo) <= inp <= YearEnd(hi) && YearStart(lo) <= tar <= YearEnd(hi)
    requires InDatetimeRange(inp) && InDatetimeRange(tar)
    ensures GetDsHandles(years, handles, inp, tar).Success?
  {
    YearInSpan(lo, hi, inp);
    YearInSpan(lo, hi, tar);
  }

  /** An hour between January 1 of `lo` and December 31 of `hi` has a year
      between the two. */
  lemma YearInSpan(lo: int, hi: int, t: int)
    requires 1 <= lo <= hi
    requires YearStart(lo) <= t <= YearEnd(hi)
    ensures lo <= YearOf(t) <= hi
  {
    YearOfUnique(YearStart(lo), lo);
    YearStartGrowth(1, lo);
    YearOfMonotone(YearStart(lo), t);
    YearStartMonotone(hi, hi + 1);
    YearOfUnique(YearEnd(hi), hi);
    YearOfMonotone(t, YearEnd(hi));
  }

  /** The timeline spans every hour between the earliest and the latest
      year even when a year in between is not listed: the sample starting
      that year is servable, yet looking up its handle fails. */
  lemma GapYearFails<H>(years: seq<int>, handles: seq<H>, dt: int, ix: PairIndex, g: int)
    requires ComputeTotalSamples(years, dt) == Success(ix)
    requires SeqMin(years) < g < SeqMax(years) && g !in years
    requires YearStart(g) + dt <= YearEnd(SeqMax(years))
    ensures 0 <= YearStart(g) - ix.first < Len(ix)
    ensures IdxToDatetime(ix, YearStart(g) - ix.first) == Success((YearStart(g), YearStart(g) + ix.dt))
    ensures GetDsHandles(years, handles, YearStart(g), YearStart(g) + ix.dt) == Failure(YearNotFound(g))
  {
    var lo, hi := SeqMin(years), SeqMax(years);
    assert ix.dt == dt && ix.first == YearStart(lo) && ix.last == YearEnd(hi);
    assert DenseIndex(ix);
    GapWithin(years, handles, ix, lo, hi, g);
  }

  lemma GapWithin<H>(years: seq<int>, handles: seq<H>, ix: PairIndex, lo: int, hi: int, g: int)
    requires DenseIndex(ix)
    requires MinYear <= lo < g < hi && ix.first == YearStart(lo) && ix.last == YearEnd(hi)
    requires g !in years
    requires YearStart(g) + ix.dt <= ix.last
    ensures 0 <= YearStart(g) - ix.first < Len(ix)
    ensures IdxToDatetime(ix, YearStart(g) - ix.first) == Success((YearStart(g), YearStart(g) + ix.dt))
    ensures GetDsHandles(years, handles, YearStart(g), YearStart(g) + ix.dt) == Failure(YearNotFound(g))
  {
    GapOnTimeline(ix, lo, hi, g);
    UnlistedYearLookup(years, handles, g, YearStart(g) + ix.dt);
  }

  /** The first hour of a year strictly inside the timeline is served at
      its offset from the first hour. */
  lemma GapOnTimeline(ix: PairIndex, lo: int, hi: int, g: int)
    requires DenseIndex(ix)
    requires MinYear <= lo < g < hi && ix.first == YearStart(lo) && ix.last == YearEnd(hi)
    requires YearStart(g) + ix.dt <= ix.last
    ensures 0 <= YearStart(g) - ix.first < Len(ix)
    ensures IdxToDatetime(ix, YearStart(g) - ix.first) == Success((YearStart(g), YearStart(g) + ix.dt))
    ensures InDatetimeRange(YearStart(g)) && InDatetimeRange(YearStart(g) + ix.dt)
  {
    var t := YearStart(g);
    YearStartMonotone(lo, g);
    YearStartMonotone(g, hi + 1);
    GapIndex(ix, t);
  }

  /** Looking up the first hour of an unlisted year reports that year. */
  lemma UnlistedYearLookup<H>(years: seq<int>, handles: seq<H>, g: int, tar: int)
    requires MinYear <= g && g !in years
    requires InDatetimeRange(YearStart(g)) && InDatetimeRange(tar)
    ensures GetDsHandles(years, handles, YearStart(g), tar) == Failure(YearNotFound(g))
  {
    YearOfUnique(YearStart(g), g) by { YearStartStep(g); }
  }

  /** In a dense index, any hour whose target still lies inside the
      timeline is served by the index at its offset from the start. */
  lemma GapIndex(ix: PairIndex, t: int)
    requires DenseIndex(ix)
    requires ix.first <= t && t + ix.dt <= ix.last && t <= ix.last
    ensures 0 <= t - ix.first < Len(ix)
    ensures IdxToDatetime(ix, t - ix.first) == Success((t, t + ix.dt))
  {
    assert t in ix.valid;
    var i := t - ix.first;
    assert ix.valid[i] == t;
  }

  /** A single year 2019 with a one-hour lead time serves 365 * 24 - 1
      samples: the last hour of the year has no target. */
  lemma Example2019()
    ensures ComputeTotalSamples([2019], 1).Success?
    ensures Len(ComputeTotalSamples([2019], 1).value) == 8759
  {
    var ys := [2019];
    assert SeqMin(ys) == 2019 && SeqMax(ys) == 2019;
    HoursIn2019();
    YearStartMonotone(2020, MaxYear + 1);
  }
}

=== FILE: seq_util.dfy ===
/** Sequence helpers shared by the dataset index and the grid tools:
    Python's `list.index`, boolean-mask compression (numpy `a[mask]`),
    list-comprehension filtering and clamped slicing. */
module SeqUtil {
  import opened Wrappers

  predicate StrictlyAscending(s: seq<int>) {
    forall i, j :: 0 <= i < j < |s| ==> s[i] < s[j]
  }

  predicate SortedBy<T>(s: seq<T>, key: T -> int) {
    forall i, j :: 0 <= i < j < |s| ==> key(s[i]) <= key(s[j])
  }

  /** The least element, `sorted(s)[0]` in Python (Align.RealMin is the
      same reduction over coordinate reals). */
  function SeqMin(s: seq<int>): (m: int)
    requires |s| > 0
    ensures m in s
    ensures forall k :: 0 <= k < |s| ==> m <= s[k]
  {
    if |s| == 1 then s[0]
    else
      var rest := SeqMin(s[1..]);
      assert forall k :: 1 <= k < |s| ==> s[k] == s[1..][k - 1];
      if s[0] <= rest then s[0] else rest
  }

  /** The greatest element, `sorted(s)[-1]` in Python. */
  function SeqMax(s: seq<int>): (m: int)
    requires |s| > 0
    ensures m in s
    ensures forall k :: 0 <= k < |s| ==> s[k] <= m
  {
    if |s| == 1 then s[0]
    else
      var rest := SeqMax(s[1..]);
      assert forall k :: 1 <= k < |s| ==> s[k] == s[1..][k - 1];
      if s[0] >= rest then s[0] else rest
  }

  /** `k` is the first position of `x` in `s`. */
  predicate FirstOccurrence<T(==)>(s: seq<T>, x: T, k: int) {
    0 <= k < |s| && s[k] == x && forall j :: 0 <= j < k ==> s[j] != x
  }

  lemma FirstOccurrenceUnique<T>(s: seq<T>, x: T, a: int, b: int)
    requires FirstOccurrence(s, x, a) && FirstOccurrence(s, x, b)
    ensures a == b
  {
  }

  /** Python's `s.index(x)`: the first position of `x`, or None where the
      Python call raises ValueError. */
  function IndexOf<T(==)>(s: seq<T>, x: T): (r: Option<nat>)
    ensures r.None? <==> x !in s
    ensures r.Some? ==> FirstOccurrence(s, x, r.value)
  {
    if |s| == 0 then None
    else if s[0] == x then Some(0)
    else
      match IndexOf(s[1..], x)
      case None => None
      case Some(k) => Some(k + 1)
  }

  /** The integers a, a+1, ..., b (empty when b < a). */
  function Range(a: int, b: int): (r: seq<int>)
    ensures |r| == if b < a then 0 else b - a + 1
    ensures forall i :: 0 <= i < |r| ==> r[i] == a + i
  {
    seq(if b < a then 0 else b - a + 1, i => a + i)
  }

  /** The positions at which a boolean mask is true, in increasing order. */
  function TruePositions(m: seq<bool>): (p: seq<nat>)
    ensures StrictlyAscending(p)
    ensures forall k :: 0 <= k < |p| ==> p[k] < |m| && m[p[k]]
    ensures forall i :: 0 <= i < |m| && m[i] ==> i in p
    ensures (forall i :: 0 <= i < |m| ==> !m[i]) ==> p == []
  {
    TruePositionsFrom(m, 0)
  }

  function TruePositionsFrom(m: seq<bool>, from: nat): (p: seq<nat>)
    requires from <= |m|
    ensures StrictlyAscending(p)
    ensures forall k :: 0 <= k < |p| ==> from <= p[k] < |m| && m[p[k]]
    ensures forall i :: from <= i < |m| && m[i] ==> i in p
    ensures (forall i :: from <= i < |m| ==> !m[i]) ==> p == []
    decreases |m| - from
  {
    if from == |m| then []
    else
      var rest := TruePositionsFrom(m, from + 1);
      if m[from] then
        PrependAscending(from, rest);
        [from] + rest
      else rest
  }

  lemma PrependAscending(x: int, rest: seq<nat>)
    requires StrictlyAscending(rest)
    requires forall k :: 0 <= k < |rest| ==> x < rest[k]
    ensures StrictlyAscending([x] + rest)
    ensures forall k :: 1 <= k < |rest| + 1 ==> ([x] + rest)[k] == rest[k - 1]
  {
  }

  /** numpy's `s[m]` for a boolean mask `m` of the same length. */
  function Compress<T>(s: seq<T>, m: seq<bool>): (r: seq<T>)
    requires |m| == |s|
    ensures |r| == |TruePositions(m)|
    ensures forall k :: 0 <= k < |r| ==> r[k] == s[TruePositions(m)[k]]
  {
    CompressFromPositions(s, m, 0);
    CompressFrom(s, m, 0)
  }

  /** The entries of s at the true positions of m from `from` on. */
  function CompressFrom<T>(s: seq<T>, m: seq<bool>, from: nat): (r: seq<T>)
    requires |m| == |s| && from <= |s|
    ensures |r| <= |s| - from
    decreases |s| - from
  {
    if from == |s| then []
    else
      var rest := CompressFrom(s, m, from + 1);
      if m[from] then [s[from]] + rest else rest
  }

  /** One kept entry in front of a compression. */
  lemma PrependPosition<T>(s: seq<T>, i: nat, rest: seq<T>, pr: seq<nat>)
    requires i < |s| && |rest| == |pr|
    requires forall k :: 0 <= k < |pr| ==> pr[k] < |s| && rest[k] == s[pr[k]]
    ensures var r, p := [s[i]] + rest, [i] + pr;
            |r| == |p| && forall k :: 0 <= k < |r| ==> p[k] < |s| && r[k] == s[p[k]]
  {
    var r, p := [s[i]] + rest, [i] + pr;
    forall k | 0 <= k < |r|
      ensures p[k] < |s| && r[k] == s[p[k]]
    {
      if k > 0 {
        assert r[k] == rest[k - 1] && p[k] == pr[k - 1];
      }
    }
  }

  lemma {:induction false} CompressFromPositions<T>(s: seq<T>, m: seq<bool>, from: nat)
    requires |m| == |s| && from <= |s|
    ensures |CompressFrom(s, m, from)| == |TruePositionsFrom(m, from)|
    ensures forall k :: 0 <= k < |CompressFrom(s, m, from)| ==>
              CompressFrom(s, m, from)[k] == s[TruePositionsFrom(m, from)[k]]
    decreases |s| - from
  {
    if from < |s| {
      CompressFromPositions(s, m, from + 1);
      var r, p := CompressFrom(s, m, from), TruePositionsFrom(m, from);
      var rest, pr := CompressFrom(s, m, from + 1), TruePositionsFrom(m, from + 1);
      if m[from] {
        PrependPosition(s, from, rest, pr);
      } else {
        assert r == rest && p == pr;
      }
    }
  }

  /** The mask `[f(x) for x in s]`. */
  function MaskOf<T>(s: seq<T>, f: T -> bool): (m: seq<bool>)
    ensures |m| == |s|
    ensures forall i :: 0 <= i < |s| ==> (m[i] <==> f(s[i]))
  {
    seq(|s|, i requires 0 <= i < |s| => f(s[i]))
  }

  /** `[x for x in s if f(x)]`. */
  function Filter<T(!new)>(s: seq<T>, f: T -> bool): (r: seq<T>)
    ensures |r| <= |s|
    ensures forall x :: x in r <==> x in s && f(x)
  {
    if |s| == 0 then []
    else
      var rest := Filter(s[1..], f);
      assert forall x :: x in s <==> x == s[0] || x in s[1..] by {
        assert s == [s[0]] + s[1..];
      }
      if f(s[0]) then [s[0]] + rest else rest
  }

  /** The list comprehension unfolds one element at a time. */
  lemma FilterCons<T(!new)>(x: T, t: seq<T>, f: T -> bool)
    ensures Filter([x] + t, f) == (if f(x) then [x] else []) + Filter(t, f)
  {
    assert ([x] + t)[1..] == t;
  }

  /** Compression from position from+1 of a sequence with one more leading
      element is compression of the rest from position from. */
  lemma {:induction false} CompressShift<T>(x: T, t: seq<T>, b: bool, m: seq<bool>, from: nat)
    requires |m| == |t| && from <= |t|
    ensures CompressFrom([x] + t, [b] + m, from + 1) == CompressFrom(t, m, from)
    decreases |t| - from
  {
    if from < |t| {
      var s', m' := [x] + t, [b] + m;
      CompressShift(x, t, b, m, from + 1);
      var rest := CompressFrom(t, m, from + 1);
      assert s'[from + 1] == t[from] && m'[from + 1] == m[from];
      assert CompressFrom(s', m', from + 1) == if m[from] then [t[from]] + rest else rest;
      assert CompressFrom(t, m, from) == if m[from] then [t[from]] + rest else rest;
    }
  }

  /** A list comprehension with a condition is numpy's compression by the
      mask of that condition. */
  lemma {:induction false} FilterIsCompress<T(!new)>(s: seq<T>, f: T -> bool)
    ensures Filter(s, f) == Compress(s, MaskOf(s, f))
  {
    FilterIsCompressFrom(s, f);
  }

  lemma {:induction false} FilterIsCompressFrom<T(!new)>(s: seq<T>, f: T -> bool)
    ensures Filter(s, f) == CompressFrom(s, MaskOf(s, f), 0)
  {
    if |s| > 0 {
      var x, t := s[0], s[1..];
      assert s == [x] + t;
      FilterIsCompressFrom(t, f);
      FilterIsCompressStep(x, t, f);
    }
  }

  lemma FilterIsCompressStep<T(!new)>(x: T, t: seq<T>, f: T -> bool)
    requires Filter(t, f) == CompressFrom(t, MaskOf(t, f), 0)
    ensures Filter([x] + t, f) == CompressFrom([x] + t, MaskOf([x] + t, f), 0)
  {
    var m := MaskOf(t, f);
    var s', m' := [x] + t, [f(x)] + m;
    assert MaskOf(s', f) == m';
    CompressShift(x, t, f(x), m, 0);
    assert CompressFrom(s', m', 0) == (if f(x) then [x] else []) + CompressFrom(s', m', 1);
    FilterCons(x, t, f);
  }

  /** Filtering keeps the relative order of what it keeps: each kept
      element sits at a strictly larger source position than the one before. */
  lemma FilterKeepsOrder<T(!new)>(s: seq<T>, f: T -> bool)
    ensures var p := TruePositions(MaskOf(s, f));
            && |Filter(s, f)| == |p|
            && StrictlyAscending(p)
            && forall k :: 0 <= k < |p| ==> Filter(s, f)[k] == s[p[k]]
  {
    FilterIsCompress(s, f);
  }

  lemma FilterKeepsStrictlyAscending(s: seq<int>, f: int -> bool)
    requires StrictlyAscending(s)
    ensures StrictlyAscending(Filter(s, f))
  {
    FilterKeepsOrder(s, f);
  }

  lemma FilterKeepsSortedBy<T(!new)>(s: seq<T>, f: T -> bool, key: T -> int)
    requires SortedBy(s, key)
    ensures SortedBy(Filter(s, f), key)
  {
    FilterKeepsOrder(s, f);
  }

  /** Nothing is kept when no element satisfies the condition. */
  lemma FilterNone<T(!new)>(s: seq<T>, f: T -> bool)
    requires forall x :: x in s ==> !f(x)
    ensures Filter(s, f) == []
  {
    var r := Filter(s, f);
    assert forall k :: 0 <= k < |r| ==> r[k] in r;
  }

  /** Filtering by a stronger condition after a weaker one is filtering by
      the stronger one alone. */
  lemma {:induction false} FilterOfFilter<T(!new)>(s: seq<T>, f: T -> bool, g: T -> bool)
    requires forall x :: g(x) ==> f(x)
    ensures Filter(Filter(s, f), g) == Filter(s, g)
  {
    if |s| == 0 {
      assert Filter(s, f) == [];
    } else {
      var x, t := s[0], s[1..];
      assert s == [x] + t;
      FilterOfFilter(t, f, g);
      FilterOfFilterStep(x, t, f, g);
    }
  }

  lemma FilterOfFilterStep<T(!new)>(x: T, t: seq<T>, f: T -> bool, g: T -> bool)
    requires g(x) ==> f(x)
    requires Filter(Filter(t, f), g) == Filter(t, g)
    ensures Filter(Filter([x] + t, f), g) == Filter([x] + t, g)
  {
    var ft := Filter(t, f);
    FilterCons(x, t, f);
    FilterCons(x, t, g);
    if f(x) {
      FilterCons(x, ft, g);
    }
  }

  /** A condition that holds exactly on the first n positions keeps the
      first n elements. */
  lemma {:induction false} FilterPrefix<T(!new)>(s: seq<T>, f: T -> bool, n: nat)
    requires n <= |s|
    requires forall i :: 0 <= i < |s| ==> (f(s[i]) <==> i < n)
    ensures Filter(s, f) == s[..n]
  {
    if n == 0 {
      FilterNone(s, f);
    } else {
      var x, t := s[0], s[1..];
      assert s == [x] + t;
      assert forall i :: 0 <= i < |t| ==> (f(t[i]) <==> i < n - 1) by {
        assert forall i :: 0 <= i < |t| ==> t[i] == s[i + 1];
      }
      FilterPrefix(t, f, n - 1);
      FilterCons(x, t, f);
      assert s[..n] == [x] + t[..n - 1];
    }
  }

  /** Python's `s[lo:hi]` for non-negative bounds: both ends are clamped to
      the length, and an empty slice results when lo >= hi. */
  function PySlice<T>(s: seq<T>, lo: nat, hi: nat): (r: seq<T>)
    ensures |r| == if lo < hi && lo < |s| then (if hi < |s| then hi else |s|) - lo else 0
    ensures forall k :: 0 <= k < |r| ==> r[k] == s[lo + k]
    ensures lo <= hi <= |s| ==> r == s[lo..hi]
  {
    var a := if lo < |s| then lo else |s|;
    var b := if hi < |s| then hi else |s|;
    if a < b then s[a..b] else []
  }
}

=== FILE: wrappers.dfy ===
/** Failure-carrying return values standing in for the exceptions the
    Python code raises. */
module Wrappers {

  datatype Option<+T> = None | Some(value: T)

  datatype Result<+T, +E> = Success(value: T) | Failure(error: E) {

    predicate IsFailure() {
      Failure?
    }

    function PropagateFailure<U>(): Result<U, E>
      requires Failure?
    {
      Failure(error)
    }

    function Extract(): T
      requires Success?
    {
      value
    }
  }
}
